=== FILE: README.md ===
# Ollamac chat core in Dafny

Ollamac is a macOS chat client. It talks to a local Ollama server, which streams a reply chunk by chunk, and to a hosted OpenAI chat-completion endpoint, which returns a reply that the app reveals word by word. This project models the parts of the app that decide what a conversation holds. Each part is a pure function over immutable values:

- **`MessageViewModel`** is the generation state machine. It covers `send`, `regenerate`, `stopGenerate`, the three stream handlers and the two hosted handlers. It also covers the chat history sent to the hosted endpoint, the typing reveal and `fetch(for:)`.
- **`MessageView`** covers the guards in front of send and regenerate, the context a new or regenerated message carries, and the flags each response row gets.
- **`MessageListItemView`** covers the row's button visibility, the priority of its body, its configuration modifiers and the play/pause toggle.
- **`OllamaViewModel`** covers the registration of the two hosted profiles at start. It also covers `fetch()`: availability reconciliation against the server's model list, the upsert of the reported models, and the list sorted by name.
- **`OllamaModels`** covers the invariants `OllamaModel.init` sets up.
- **`ChatSidebarListView`** covers the Today / Yesterday / Previous Days sections and the confirmed delete.

The view model's mutable state is a `Session` value: the messages, the optional `ViewState`, and whether the local generate stream is still subscribed. Every handler maps one `Session` to the next. Several outside answers become inputs rather than effects:

- the server's reachability;
- the HTTP reply of a hosted request;
- the events of the local stream;
- the calendar day;
- whether the store's delete succeeds, and whether saving a chat or the model list succeeds.

A hosted send is modelled with its reply already applied. The message it writes is identified by its index at dispatch, which is always the last one.

Files:

| file | module |
|---|---|
| `wrappers.dfy` | `Wrappers`: `Option` and `Result` |
| `text.dfy` | `Text`: whitespace trimming, the split on `" "` and its join, code-point order on strings |
| `ollama_model.dfy` | `OllamaModels` |
| `message.dfy` | `Messages`: `ViewState`, `Message`, `Chat` |
| `hosted_api.dfy` | `HostedApi`: request, reply classification, typing reveal |
| `message_view_model.dfy` | `MessageViewModel` |
| `message_list_item_view.dfy` | `MessageListItemView` |
| `message_view.dfy` | `MessageView` |
| `ollama_view_model.dfy` | `OllamaViewModel` |
| `chat_sidebar_list_view.dfy` | `ChatSidebarListView` |

Behaviours of the code worth knowing:

- Streamed chunks are concatenated with no separator.
- There is no credentials-specific branch for a 401 reply: any non-200 status is the invalid-response error.
- Every hosted request names `gpt-4o`, whichever hosted profile the chat uses.
- `stopGenerate` cancels only the local stream. A hosted request that is still pending, and a typing reveal that has already started, carry on.
- The reveal splits on `" "` and joins with single spaces. Runs of spaces therefore collapse, and leading and trailing spaces are dropped.

## Model

| member | source | states |
|---|---|---|
| OllamaModels.NewModel | Ollamac/Models/OllamaModel.swift:23-32 | the four arguments are stored as given, and a profile starts out available exactly when it is hosted |
| OllamaModels.NotAvailableIsNegation | Ollamac/Models/OllamaModel.swift:34-36 | `isNotAvailable` is the negation of `isAvailable` |
| Messages.ErrorMessage | Ollamac/Views/MessageViews/MessageView.swift:56 | the optional state has an error text exactly when it is an error state, and the text is that error's message |
| Text.Trim | Ollamac/Views/MessageViews/MessageView.swift:189 | the trimmed prompt is empty exactly when the prompt is only whitespace and newlines; otherwise it starts and ends with a non-whitespace character; it is a slice of the prompt with only whitespace before and after it |
| Text.SplitWords | Ollamac/ViewModels/MessageViewModel.swift:216 | every piece of the split is a non-empty word without spaces |
| Text.SplitJoinWords | Ollamac/ViewModels/MessageViewModel.swift:216-221 | splitting words joined by single spaces gives back the same words |
| Text.JoinSplitWords | Ollamac/ViewModels/MessageViewModel.swift:216-221 | joining the split of a single-spaced text gives back that text |
| Text.JoinSplitCollapsesSpaces | Ollamac/ViewModels/MessageViewModel.swift:216-221 | for any text, joining its split drops leading and trailing spaces and turns each run of spaces into one; with the round trip above, the split is the only list of words with that join |
| Text.JoinWordsSingleSpaced | Ollamac/ViewModels/MessageViewModel.swift:216-221 | words joined by single spaces never start or end with a space or hold two spaces in a row |
| HostedApi.History | Ollamac/ViewModels/MessageViewModel.swift:172-183 | the history ends with a user turn holding the new prompt and starts with the turns of the stored messages |
| HostedApi.ChatGPTRequest | Ollamac/ViewModels/MessageViewModel.swift:159-190 | the request goes to the chat-completions endpoint with a bearer key, names `gpt-4o`, and carries the history |
| HostedApi.HistoryLength | Ollamac/ViewModels/MessageViewModel.swift:173-183 | the history has one turn per stored prompt, one per stored response, and one for the new prompt |
| HostedApi.PriorTurnsLength | Ollamac/ViewModels/MessageViewModel.swift:174-181 | the stored turns number the stored prompts plus the stored responses |
| HostedApi.HistoryByRole | Ollamac/ViewModels/MessageViewModel.swift:173-183 | reading the history by role gives the stored prompts in order followed by the new prompt, and the stored responses in order |
| HostedApi.PriorTurnsByRole | Ollamac/ViewModels/MessageViewModel.swift:174-181 | reading the stored turns by role gives the stored prompts and the stored responses, each in list order |
| HostedApi.PriorTurnsAppend | Ollamac/ViewModels/MessageViewModel.swift:174-181 | the stored turns of two lists appended are the two lists' turns appended |
| HostedApi.PromptSentTwice | Ollamac/ViewModels/MessageViewModel.swift:41-51 | the message is appended before the history is built, so a pending prompt fills the last two turns |
| HostedApi.Classify | Ollamac/ViewModels/MessageViewModel.swift:192-199 | the request succeeds exactly on status 200 with a decodable body; any other status is the invalid-response error; a transport failure keeps its description |
| HostedApi.UnauthorizedIsInvalidResponse | Ollamac/ViewModels/MessageViewModel.swift:194-196 | a 401 reply is the same invalid-response error as any other non-200 reply |
| HostedApi.RevealedContent | Ollamac/ViewModels/MessageViewModel.swift:204-205 | there is content to reveal exactly when the first choice exists and its content is not null |
| HostedApi.DisplayTypingEffect | Ollamac/ViewModels/MessageViewModel.swift:215-229 | the response starts at "" and grows one word at a time; each value is a prefix of the next and of the final text; the k-th value is the first k words joined by single spaces; the message ends done with nothing else changed |
| HostedApi.RevealKeepsSingleSpacedText | Ollamac/ViewModels/MessageViewModel.swift:216-221 | a single-spaced reply is revealed exactly as sent |
| HostedApi.RevealCollapsesSpaces | Ollamac/ViewModels/MessageViewModel.swift:216-221 | a run of spaces in the reply is revealed as one space ("a  b" shows as "a b") |
| MessageViewModel.HandleReceive | Ollamac/ViewModels/MessageViewModel.swift:126-135 | with messages present, the chunk is appended to the last response (nil read as "") and the context replaced; the state becomes loading; no other message changes; an empty list is left as is |
| MessageViewModel.HandleError | Ollamac/ViewModels/MessageViewModel.swift:137-146 | the last message is marked failed and not done, and the state carries the text; an empty list is left as is |
| MessageViewModel.HandleComplete | Ollamac/ViewModels/MessageViewModel.swift:148-157 | the last message is marked done and not failed, and the state becomes nil; an empty list is left as is |
| MessageViewModel.StopGenerate | Ollamac/ViewModels/MessageViewModel.swift:120-124 | the state becomes nil and the local stream is cancelled; the messages are untouched |
| MessageViewModel.StopGenerateIdempotent | Ollamac/ViewModels/MessageViewModel.swift:120-124 | stopping twice is the same as stopping once |
| MessageViewModel.Deliver | Ollamac/ViewModels/MessageViewModel.swift:60-70 | on a live stream a chunk goes to `handleReceive`, completion to `handleComplete` and failure to `handleError`, the last two ending the stream; on a cancelled stream nothing changes |
| MessageViewModel.DeliverAll | Ollamac/ViewModels/MessageViewModel.swift:60-70 | a cancelled stream ignores every event; events never add or remove messages, and a stream never comes back to life |
| MessageViewModel.ChunksConcatenate | Ollamac/ViewModels/MessageViewModel.swift:126-135 | after chunks on a live stream, the last response is the old one followed by the chunks' texts in order, and its context is the last chunk's; no other message or field changes |
| MessageViewModel.NothingAfterStop | Ollamac/ViewModels/MessageViewModel.swift:120-124 | once the stream is cancelled, later stream events change nothing |
| MessageViewModel.CancelKeepsDeliveredPrefix | Ollamac/ViewModels/MessageViewModel.swift:120-135 | stopping mid-stream keeps exactly the chunks delivered before the stop, and done and error are unchanged |
| MessageViewModel.HandleChatGPTError | Ollamac/ViewModels/MessageViewModel.swift:231-237 | the target message is marked failed and not done, no other message changes, and the state carries the text |
| MessageViewModel.TypingReveal | Ollamac/ViewModels/MessageViewModel.swift:215-229 | the target message holds the revealed text and is done, no other message changes, and the state becomes nil |
| MessageViewModel.HandleChatGPTResponse | Ollamac/ViewModels/MessageViewModel.swift:203-212 | the first choice's content is revealed when it exists; otherwise the message fails with "Invalid ChatGPT response" |
| MessageViewModel.Generate | Ollamac/ViewModels/MessageViewModel.swift:48-77 | backend choice: no model fails at once; a hosted profile sends one request; a local model on an unreachable server fails with the unreachable message; a reachable one opens the stream with the model's name; only the last message can change |
| MessageViewModel.Send | Ollamac/ViewModels/MessageViewModel.swift:41-78 | the message is appended after the untouched earlier ones and keeps its prompt, context and chat; a reachable local model leaves the state loading with a live stream |
| MessageViewModel.Regenerate | Ollamac/ViewModels/MessageViewModel.swift:81-117 | the message replaces the last one and nothing else; a reachable local model leaves the state loading with a live stream |
| MessageViewModel.SendSelectsBackend | Ollamac/ViewModels/MessageViewModel.swift:48-77 | per backend: no model, or an unreachable server, fails the new message without a request; a hosted profile sends one `gpt-4o` request whose history already holds the new message |
| MessageViewModel.HostedReplyOutcome | Ollamac/ViewModels/MessageViewModel.swift:49-55 | how each hosted reply ends a send: a transport failure, a non-200 status, an undecodable 200 body and a decoded reply without a first choice's content each fail the message with their own text; a decoded reply with content leaves the message holding the revealed words, done, with the state cleared |
| MessageViewModel.RegenerateHostedReplyOutcome | Ollamac/ViewModels/MessageViewModel.swift:88-94 | how each hosted reply ends a regenerate: the same five cases as for a send, applied to the replaced last message, and no other message changes |
| MessageViewModel.MessagesOf | Ollamac/ViewModels/MessageViewModel.swift:32-33 | the chat's messages are the stored messages of that chat id, each as often as stored |
| MessageViewModel.SortByCreatedAt | Ollamac/ViewModels/MessageViewModel.swift:34-35 | the result is ascending by creation time and a permutation of the input |
| MessageViewModel.FetchFor | Ollamac/ViewModels/MessageViewModel.swift:31-38 | the messages become exactly the chat's stored messages, sorted by creation time; the send state is untouched |
| MessageViewModel.DeliverKeepsInvariant | Ollamac/ViewModels/MessageViewModel.swift:60-70 | stream events keep "a live stream implies loading" |
| MessageViewModel.SendKeepsInvariant | Ollamac/ViewModels/MessageViewModel.swift:41-78 | a send from an idle session keeps "a live stream implies loading" |
| MessageViewModel.RegenerateKeepsInvariant | Ollamac/ViewModels/MessageViewModel.swift:81-117 | a regenerate from an idle session keeps "a live stream implies loading" |
| MessageViewModel.LocalStreamScenario | Ollamac/ViewModels/MessageViewModel.swift:57-70 | prompt "Hello" streamed as "Hi", "there!" and then completion ends with the response "Hithere!", done, the state nil and the stream ended |
| MessageListItemView.ItemView.Content | Ollamac/Views/MessageViews/MessageListItemView.swift:78-95 | a spinner exactly while generating; otherwise the error text exactly when the row failed and has one; otherwise the text as Markdown |
| MessageListItemView.ItemView.Assistant | Ollamac/Views/MessageViews/MessageListItemView.swift:220-224 | sets the assistant flag and nothing else |
| MessageListItemView.ItemView.Generating | Ollamac/Views/MessageViews/MessageListItemView.swift:226-230 | sets the generating flag and nothing else |
| MessageListItemView.ItemView.FinalMessage | Ollamac/Views/MessageViews/MessageListItemView.swift:232-236 | sets the final-row flag and nothing else |
| MessageListItemView.ItemView.Error | Ollamac/Views/MessageViews/MessageListItemView.swift:238-243 | sets the error flag; the row always has an error text afterwards, which is "An error occurred" when none is given |
| MessageListItemView.ItemView.Hover | Ollamac/Views/MessageViews/MessageListItemView.swift:119 | records the hover and always clears the copied mark |
| MessageListItemView.ItemView.Copy | Ollamac/Views/MessageViews/MessageListItemView.swift:130-139 | sets the copied mark and nothing else |
| MessageListItemView.NewItem | Ollamac/Views/MessageViews/MessageListItemView.swift:24-44 | a new row holds its text with every flag off and no error text |
| MessageListItemView.ItemView.IsCopyButtonVisible | Ollamac/Views/MessageViews/MessageListItemView.swift:122-124 | copy shows exactly on a hovered assistant row whose body is not the spinner |
| MessageListItemView.ItemView.IsRegenerateButtonVisible | Ollamac/Views/MessageViews/MessageListItemView.swift:126-128 | regenerate shows exactly on the final row when it is a hovered assistant row whose body is not the spinner |
| MessageListItemView.RegenerateNeedsFinalRow | Ollamac/Views/MessageViews/MessageListItemView.swift:122-128 | regenerate shows exactly where copy shows, and only on the final row |
| MessageListItemView.ModifiersCommute | Ollamac/Views/MessageViews/MessageListItemView.swift:220-236 | modifiers of different settings can be applied in either order |
| MessageListItemView.LastModifierWins | Ollamac/Views/MessageViews/MessageListItemView.swift:220-224 | applying a modifier twice keeps the last setting |
| MessageListItemView.TogglePlayPause | Ollamac/Views/MessageViews/MessageListItemView.swift:204-216 | playing pauses; nothing happens while audio loads; a stopped player resumes; otherwise speech starts loading |
| MessageListItemView.PauseThenResume | Ollamac/Views/MessageViews/MessageListItemView.swift:204-216 | pausing and toggling again restores the playing state |
| MessageView.IsGenerating | Ollamac/Views/MessageViews/MessageView.swift:38-40 | generating exactly when the state is set and carries no error text, that is, while it is loading |
| MessageView.PromptRow | Ollamac/Views/MessageViews/MessageView.swift:47-48 | a prompt row shows the prompt (nil as "") and is not an assistant row, not generating, not final and not failed |
| MessageView.LastContext | Ollamac/Views/MessageViews/MessageView.swift:192 | the context of the chat's last message, or empty when the chat has none |
| MessageView.PendingMessage | Ollamac/Views/MessageViews/MessageView.swift:191-193 | a new message holds the prompt, no response, the context of the chat's last message and the chat's id |
| MessageView.SendAction | Ollamac/Views/MessageViews/MessageView.swift:187-200 | nothing happens while the state is set (loading or failed) or when the prompt is blank; a failed save of the chat keeps the prompt and sends nothing; otherwise the prompt is cleared and the message is appended with the last context and the chat's id |
| MessageView.RegenerateContext | Ollamac/Views/MessageViews/MessageView.swift:205-212 | the context of the message before the last when there is one, else empty |
| MessageView.RegenerateAction | Ollamac/Views/MessageViews/MessageView.swift:202-218 | nothing happens while the state is set (loading or failed); otherwise the last message is replaced by the message with that context and no response; a failed save of the chat stops there with nothing sent, and a hosted profile sends the history holding the reset message |
| MessageView.RegenerateStartsEmpty | Ollamac/Views/MessageViews/MessageView.swift:202-218 | a regenerate that opens a local stream starts from an empty response, loading, with the stream live |
| MessageView.ResponseRow | Ollamac/Views/MessageViews/MessageView.swift:50-56 | a response row is an assistant row; it shows as generating exactly when its response is nil and a send is loading; it is final exactly when it is the last row |
| MessageView.RowFlags | Ollamac/Views/MessageViews/MessageView.swift:50-56 | only the last response row can offer regenerate; a hovered response row offers copy exactly when it is not waiting for its response; a prompt row never offers copy; a row shows the spinner exactly while its response is nil and a send is loading |
| MessageView.OneGenerationAtATime | Ollamac/Views/MessageViews/MessageView.swift:187-203 | while the state is loading, neither send nor regenerate does anything |
| OllamaViewModel.Upsert | Ollamac/Models/OllamaModel.swift:13 | inserting a profile keeps names unique; the profile is stored, every other name is kept, and nothing else is stored |
| OllamaViewModel.Init | Ollamac/ViewModels/OllamaViewModel.swift:19-26 | both hosted profiles are stored, every stored profile of another name is kept, and names stay unique |
| OllamaViewModel.InitRegistersHostedProfiles | Ollamac/ViewModels/OllamaViewModel.swift:72-98 | after start there is an available hosted profile named "gpt-4o" and one named "claude3-Opus" |
| OllamaViewModel.RemoteProfile | Ollamac/ViewModels/OllamaViewModel.swift:46-47 | a reported model is stored as an available local profile of that name |
| OllamaViewModel.MarkAvailability | Ollamac/ViewModels/OllamaViewModel.swift:37-43 | a reported name becomes available; an unreported local profile becomes unavailable; an unreported hosted profile is untouched; only the flag changes |
| OllamaViewModel.Reconcile | Ollamac/ViewModels/OllamaViewModel.swift:37-43 | each stored profile, position by position, is marked as above |
| OllamaViewModel.ReconcileKeepsNames | Ollamac/ViewModels/OllamaViewModel.swift:37-43 | marking availability keeps names unique |
| OllamaViewModel.InsertRemote | Ollamac/ViewModels/OllamaViewModel.swift:45-49 | every reported name ends up as an available local profile; unreported stored profiles stay; nothing else is stored; names stay unique |
| OllamaViewModel.SortByName | Ollamac/ViewModels/OllamaViewModel.swift:64-70 | the result is ascending by name and a permutation of the store |
| OllamaViewModel.SortByNameKeepsUnique | Ollamac/ViewModels/OllamaViewModel.swift:64-70 | sorting keeps names unique |
| OllamaViewModel.Reconciled | Ollamac/ViewModels/OllamaViewModel.swift:37-49 | after both loops the store still has unique names |
| OllamaViewModel.Fetch | Ollamac/ViewModels/OllamaViewModel.swift:33-55 | an unreachable server leaves the store and the published list as they were; a failed save leaves the published profiles in place, in order, but those that are stored already show their new availability, since they are the store's own records; otherwise the published list is the new store sorted by name; names stay unique |
| OllamaViewModel.FetchReconciles | Ollamac/ViewModels/OllamaViewModel.swift:33-55 | the published list holds every reported model as available and local, every unreported local profile as unavailable, every unreported hosted profile unchanged, and nothing else |
| OllamaViewModel.ReportedModelsAreAvailable | Ollamac/ViewModels/OllamaViewModel.swift:37-49 | a stored profile whose name the server reports is listed as available afterwards |
| ChatSidebarListView.SectionOf | Ollamac/Views/ChatViews/ChatSidebarListView.swift:18-45 | a chat is in Today exactly when modified today, in Yesterday exactly when modified the day before, and otherwise in Previous Days |
| ChatSidebarListView.ChatsIn | Ollamac/Views/ChatViews/ChatSidebarListView.swift:22-24 | a section lists exactly the chats whose day puts them in it |
| ChatSidebarListView.TodayChats | Ollamac/Views/ChatViews/ChatSidebarListView.swift:18-25 | lists exactly the chats modified today |
| ChatSidebarListView.YesterdayChats | Ollamac/Views/ChatViews/ChatSidebarListView.swift:27-35 | lists exactly the chats modified yesterday |
| ChatSidebarListView.PreviousDaysChats | Ollamac/Views/ChatViews/ChatSidebarListView.swift:37-45 | lists exactly the chats modified neither today nor yesterday |
| ChatSidebarListView.ChatsInAppend | Ollamac/Views/ChatViews/ChatSidebarListView.swift:22-24 | sections keep the order of the chat list |
| ChatSidebarListView.SectionsPartition | Ollamac/Views/ChatViews/ChatSidebarListView.swift:18-45 | the three sections together hold every chat exactly once |
| ChatSidebarListView.SectionHiddenWhenNoChatThatDay | Ollamac/Views/ChatViews/ChatSidebarListView.swift:73-128 | a section is empty, and so hidden, exactly when no chat falls on its day |
| ChatSidebarListView.RemoveChat | Ollamac/Views/ChatViews/ChatSidebarListView.swift:180 | the list without the deleted chat's id keeps every other chat and adds nothing |
| ChatSidebarListView.DeleteAction | Ollamac/Views/ChatViews/ChatSidebarListView.swift:178-184 | nothing happens without a chat to delete; otherwise the chat goes if the store's delete succeeds, no other chat goes, and the pending delete and selection are cleared |
| ChatSidebarListView.RemoveCommutesWithSections | Ollamac/Views/ChatViews/ChatSidebarListView.swift:178-184 | after a delete, every section is the old section without the deleted chat, in the same order |
| ChatSidebarListView.DeleteIsIdempotent | Ollamac/Views/ChatViews/ChatSidebarListView.swift:178-184 | confirming again after a delete does nothing |

## Left out

- Speech recognition, microphone access, the text-to-speech request and audio playback are I/O. `TogglePlayPause` keeps only the flags they set.
- The pasteboard write in `copyAction` is I/O; only the copied mark is modelled.
- `URLSession`, JSON encoding and decoding, and the Combine stream are abstract inputs: an `HttpReply` and a sequence of `StreamEvent`s.
- SwiftData persistence is not modelled. A `saveChanges` whose error is discarded (`try?`) is a no-op. A save whose error ends the operation is an input: `saveSucceeds` for the one in `fetch()`, and `modifySucceeds` for `chatViewModel.modify` in `sendAction` and `regenerateAction`.
- OllamaViewModel.Fetch: reading the local store (`fetchFromLocal`) is taken never to fail.
- MessageViewModel.FetchFor: the fetch is taken never to fail. `MessageView` calls it with `try?`, so in the app a failed fetch leaves the messages as they were.
- MessageViewModel.Generate: the hosted reply is applied at dispatch. In the app, `stopGenerate` does not cancel a pending hosted request, so a new send can start in the meantime and the old reply later writes its message and the state.
- Text.SplitWords: splits on Unicode scalars, not on Swift's grapheme-cluster `Character`s. A space followed by a combining mark separates words here but not in the app.
- The pacing of the typing reveal (`Task.sleep`) is left out.
- UI events between a hosted request and its reply are not modelled. A hosted send is applied with its reply, and the reveal with its last step.
- Calendar days are whole day numbers. Time zones and daylight-saving changes are not modelled.
- OllamaViewModel.SortByName: orders names by code point, not by the localized standard collation SwiftData uses.
- The text of `AppMessages.ollamaServerUnreachable` is not part of this model; a placeholder constant stands for it. The same goes for the description Foundation gives `APIError.invalidResponse`.
- `APIError.invalidURL` cannot happen, because the endpoint is a constant and well-formed URL.
- `ChatViewModel` is not part of this model. Only whether `modify` succeeds is modelled, as an input of `SendAction` and `RegenerateAction`; whether `delete` succeeds is an input of `DeleteAction`.
- `Message.swift`, `Chat` and the `ViewState` package are not part of this model. Their fields are taken from how the modelled code uses them.
- The `chats` relationship of `OllamaModel` is kept only on the chat side. Cascade deletion is not modelled.
- The API keys come from the app's settings. They are opaque strings here.
- The app entry point, the status bar, the app view, the text view and the settings view are outside the core.
- MessageViewModel.Regenerate and MessageView.RegenerateAction require a non-empty message list. On an empty list the source indexes position -1 and traps.

=== FILE: chat_sidebar_list_view.dfy ===
/**
 * `ChatSidebarListView`: the chat list split into the Today, Yesterday and
 * Previous Days sections, and the confirmed delete. Calendar days are day
 * numbers: a chat's `modifiedAt` is the day it was last modified, and
 * "yesterday" is the day before `today`.
 */
module ChatSidebarListView {
  import opened Wrappers
  import opened Messages

  /** The section a chat is listed under. */
  datatype Section = Today | Yesterday | PreviousDays

  /** `isDate(_:inSameDayAs:)` against today and then yesterday. */
  function SectionOf(c: Chat, today: int): (b: Section)
    ensures b == Today <==> c.modifiedAt == today
    ensures b == Yesterday <==> c.modifiedAt == today - 1
    ensures b == PreviousDays <==> c.modifiedAt != today && c.modifiedAt != today - 1
  {
    if c.modifiedAt == today then Today
    else if c.modifiedAt == today - 1 then Yesterday
    else PreviousDays
  }

  /** The chats listed under section `b`, in the order of `chats`. */
  function ChatsIn(chats: seq<Chat>, b: Section, today: int): (r: seq<Chat>)
    ensures |r| <= |chats|
    ensures forall c :: c in r <==> c in chats && SectionOf(c, today) == b
  {
    if |chats| == 0 then []
    else
      var rest := ChatsIn(chats[1..], b, today);
      assert chats == [chats[0]] + chats[1..];
      if SectionOf(chats[0], today) == b then [chats[0]] + rest else rest
  }

  /** `todayChats`. */
  function TodayChats(chats: seq<Chat>, today: int): (r: seq<Chat>)
    ensures forall c :: c in r <==> c in chats && c.modifiedAt == today
  {
    ChatsIn(chats, Today, today)
  }

  /** `yesterdayChats`. */
  function YesterdayChats(chats: seq<Chat>, today: int): (r: seq<Chat>)
    ensures forall c :: c in r <==> c in chats && c.modifiedAt == today - 1
  {
    ChatsIn(chats, Yesterday, today)
  }

  /** `previousDays`. */
  function PreviousDaysChats(chats: seq<Chat>, today: int): (r: seq<Chat>)
    ensures forall c :: c in r <==> c in chats && c.modifiedAt != today && c.modifiedAt != today - 1
  {
    ChatsIn(chats, PreviousDays, today)
  }

  /** Filtering a concatenation filters each part: every section keeps the
      order the chats are listed in. */
  lemma {:induction false} ChatsInAppend(a: seq<Chat>, b: seq<Chat>, s: Section, today: int)
    ensures ChatsIn(a + b, s, today) == ChatsIn(a, s, today) + ChatsIn(b, s, today)
  {
    if |a| > 0 {
      assert (a + b)[1..] == a[1..] + b;
      ChatsInAppend(a[1..], b, s, today);
    } else {
      assert a + b == b;
    }
  }

  /** The three sections partition the list: every chat is listed exactly
      once, under exactly one section. */
  lemma {:induction false} SectionsPartition(chats: seq<Chat>, today: int)
    ensures multiset(TodayChats(chats, today)) + multiset(YesterdayChats(chats, today))
      + multiset(PreviousDaysChats(chats, today)) == multiset(chats)
    ensures |TodayChats(chats, today)| + |YesterdayChats(chats, today)|
      + |PreviousDaysChats(chats, today)| == |chats|
  {
    if |chats| > 0 {
      SectionsPartition(chats[1..], today);
      assert chats == [chats[0]] + chats[1..];
      assert multiset(chats) == multiset{chats[0]} + multiset(chats[1..]);
    }
  }

  /** A section is hidden exactly when no chat was modified on its day. */
  lemma SectionHiddenWhenNoChatThatDay(chats: seq<Chat>, today: int)
    ensures |TodayChats(chats, today)| == 0 <==> forall c :: c in chats ==> c.modifiedAt != today
    ensures |YesterdayChats(chats, today)| == 0 <==> forall c :: c in chats ==> c.modifiedAt != today - 1
    ensures |PreviousDaysChats(chats, today)| == 0 <==>
      forall c :: c in chats ==> c.modifiedAt == today || c.modifiedAt == today - 1
  {
    var t, y, p := TodayChats(chats, today), YesterdayChats(chats, today), PreviousDaysChats(chats, today);
    if |t| > 0 { assert t[0] in t; }
    if |y| > 0 { assert y[0] in y; }
    if |p| > 0 { assert p[0] in p; }
  }

  // ---------------------------------------------------------------------------
  // deleteAction
  // ---------------------------------------------------------------------------

  /** The command view model's fields the delete reads and writes. */
  datatype Commands = Commands(chatToDelete: Option<Chat>, selectedChat: Option<Chat>)

  /** The chat list together with the command state. */
  datatype Sidebar = Sidebar(chats: seq<Chat>, commands: Commands)

  /** The list without the chat whose id is `id`. */
  function RemoveChat(chats: seq<Chat>, id: nat): (r: seq<Chat>)
    ensures |r| <= |chats|
    ensures forall c :: c in r <==> c in chats && c.id != id
  {
    if |chats| == 0 then []
    else
      var rest := RemoveChat(chats[1..], id);
      assert chats == [chats[0]] + chats[1..];
      if chats[0].id == id then rest else [chats[0]] + rest
  }

  /** `deleteAction`: nothing happens without a chat to delete; otherwise the
      chat is deleted (when the store's delete, whose error is discarded,
      succeeds) and both the pending delete and the selection are cleared. */
  function DeleteAction(st: Sidebar, deleteSucceeds: bool): (r: Sidebar)
    ensures st.commands.chatToDelete.None? ==> r == st
    ensures st.commands.chatToDelete.Some? ==>
      && r.commands == Commands(None, None)
      && (forall c :: c in r.chats ==> c in st.chats)
      && (forall c :: c in st.chats && c.id != st.commands.chatToDelete.value.id ==> c in r.chats)
      && (deleteSucceeds ==> forall c :: c in r.chats ==> c.id != st.commands.chatToDelete.value.id)
      && (!deleteSucceeds ==> r.chats == st.chats)
  {
    match st.commands.chatToDelete
    case None => st
    case Some(chat) =>
      var chats := if deleteSucceeds then RemoveChat(st.chats, chat.id) else st.chats;
      Sidebar(chats, Commands(None, None))
  }

  /** Deleting a chat and then bucketing lists the same sections as bucketing
      and then dropping that chat from each: the other chats keep their
      sections and their order. */
  lemma {:induction false} RemoveCommutesWithSections(chats: seq<Chat>, id: nat, s: Section, today: int)
    ensures ChatsIn(RemoveChat(chats, id), s, today) == RemoveChat(ChatsIn(chats, s, today), id)
  {
    if |chats| > 0 {
      RemoveCommutesWithSections(chats[1..], id, s, today);
    }
  }

  /** A second confirmation after a delete does nothing. */
  lemma DeleteIsIdempotent(st: Sidebar, deleteSucceeds: bool, again: bool)
    ensures DeleteAction(DeleteAction(st, deleteSucceeds), again) == DeleteAction(st, deleteSucceeds)
  {
  }
}

=== FILE: hosted_api.dfy ===
/**
 * The hosted (OpenAI chat-completion) path of `MessageViewModel`: the request
 * built from the conversation, the classification of the reply, and the
 * word-by-word typing reveal of a successful answer.
 */
module HostedApi {
  import opened Wrappers
  import opened Text
  import opened Messages

  // ---------------------------------------------------------------------------
  // Request
  // ---------------------------------------------------------------------------

  const ChatCompletionsEndpoint := "https://api.openai.com/v1/chat/completions"

  /** Every hosted request names this model, whichever profile the chat uses. */
  const RequestModelName := "gpt-4o"

  datatype Role = User | Assistant

  /** One `{"role": …, "content": …}` entry of the request's `messages`. */
  datatype Turn = Turn(role: Role, content: string)

  /** The POST request: endpoint, `Authorization` header, `model` and `messages`. */
  datatype ChatRequest = ChatRequest(
    url: string,
    authorization: string,
    model: string,
    messages: seq<Turn>)

  /** The turns one stored message contributes: its prompt as a user turn,
      then its response as an assistant turn, each only when present. */
  function MessageTurns(m: Message): seq<Turn> {
    (if m.prompt.Some? then [Turn(User, m.prompt.value)] else [])
    + (if m.response.Some? then [Turn(Assistant, m.response.value)] else [])
  }

  /** The turns of all stored messages, in list order. */
  function PriorTurns(msgs: seq<Message>): seq<Turn> {
    if |msgs| == 0 then [] else MessageTurns(msgs[0]) + PriorTurns(msgs[1..])
  }

  /** The chat history sent with a request: the stored turns followed by a
      final user turn holding the new prompt. */
  function History(msgs: seq<Message>, prompt: string): (h: seq<Turn>)
    ensures |h| > 0 && h[|h| - 1] == Turn(User, prompt)
    ensures h[..|h| - 1] == PriorTurns(msgs)
  {
    PriorTurns(msgs) + [Turn(User, prompt)]
  }

  /** `sendChatGPTRequest(prompt)` as far as the request goes. */
  function ChatGPTRequest(msgs: seq<Message>, prompt: string, apiKey: string): (r: ChatRequest)
    ensures r.model == RequestModelName
    ensures r.url == ChatCompletionsEndpoint
    ensures r.authorization == "Bearer " + apiKey
    ensures r.messages == History(msgs, prompt)
  {
    ChatRequest(ChatCompletionsEndpoint, "Bearer " + apiKey, RequestModelName, History(msgs, prompt))
  }

  // Independent counts and projections, to state what the history holds.

  /** How many messages carry a prompt. */
  function CountPrompts(msgs: seq<Message>): nat {
    if |msgs| == 0 then 0 else (if msgs[0].prompt.Some? then 1 else 0) + CountPrompts(msgs[1..])
  }

  /** How many messages carry a response. */
  function CountResponses(msgs: seq<Message>): nat {
    if |msgs| == 0 then 0 else (if msgs[0].response.Some? then 1 else 0) + CountResponses(msgs[1..])
  }

  /** The present values among optional strings, in order. */
  function Present(xs: seq<Option<string>>): seq<string> {
    if |xs| == 0 then [] else (if xs[0].Some? then [xs[0].value] else []) + Present(xs[1..])
  }

  function Prompts(msgs: seq<Message>): (r: seq<Option<string>>)
    ensures |r| == |msgs| && forall i :: 0 <= i < |msgs| ==> r[i] == msgs[i].prompt
  {
    seq(|msgs|, i requires 0 <= i < |msgs| => msgs[i].prompt)
  }

  function Responses(msgs: seq<Message>): (r: seq<Option<string>>)
    ensures |r| == |msgs| && forall i :: 0 <= i < |msgs| ==> r[i] == msgs[i].response
  {
    seq(|msgs|, i requires 0 <= i < |msgs| => msgs[i].response)
  }

  /** The contents of the turns with the given role, in order. */
  function ContentsOf(turns: seq<Turn>, role: Role): seq<string> {
    if |turns| == 0 then []
    else (if turns[0].role == role then [turns[0].content] else []) + ContentsOf(turns[1..], role)
  }

  lemma {:induction false} ContentsOfAppend(a: seq<Turn>, b: seq<Turn>, role: Role)
    ensures ContentsOf(a + b, role) == ContentsOf(a, role) + ContentsOf(b, role)
  {
    if |a| > 0 {
      assert (a + b)[1..] == a[1..] + b;
      ContentsOfAppend(a[1..], b, role);
    } else {
      assert a + b == b;
    }
  }

  /** The history holds one turn per prompt and per response, plus the new prompt. */
  lemma {:induction false} HistoryLength(msgs: seq<Message>, prompt: string)
    ensures |History(msgs, prompt)| == CountPrompts(msgs) + CountResponses(msgs) + 1
  {
    PriorTurnsLength(msgs);
  }

  lemma {:induction false} PriorTurnsLength(msgs: seq<Message>)
    ensures |PriorTurns(msgs)| == CountPrompts(msgs) + CountResponses(msgs)
  {
    if |msgs| > 0 {
      PriorTurnsLength(msgs[1..]);
    }
  }

  /** Reading the history back by role recovers the stored prompts and the
      stored responses, each in list order; the user turns end with the new prompt. */
  lemma {:induction false} HistoryByRole(msgs: seq<Message>, prompt: string)
    ensures ContentsOf(History(msgs, prompt), User) == Present(Prompts(msgs)) + [prompt]
    ensures ContentsOf(History(msgs, prompt), Assistant) == Present(Responses(msgs))
  {
    PriorTurnsByRole(msgs);
    ContentsOfAppend(PriorTurns(msgs), [Turn(User, prompt)], User);
    ContentsOfAppend(PriorTurns(msgs), [Turn(User, prompt)], Assistant);
  }

  /** The turns of one message, read by role: its prompt and its response, when present. */
  lemma MessageTurnsByRole(m: Message)
    ensures ContentsOf(MessageTurns(m), User) == Present([m.prompt])
    ensures ContentsOf(MessageTurns(m), Assistant) == Present([m.response])
  {
    var p := (if m.prompt.Some? then [Turn(User, m.prompt.value)] else []);
    var q := (if m.response.Some? then [Turn(Assistant, m.response.value)] else []);
    ContentsOfAppend(p, q, User);
    ContentsOfAppend(p, q, Assistant);
  }

  lemma {:induction false} PriorTurnsByRole(msgs: seq<Message>)
    ensures ContentsOf(PriorTurns(msgs), User) == Present(Prompts(msgs))
    ensures ContentsOf(PriorTurns(msgs), Assistant) == Present(Responses(msgs))
  {
    if |msgs| > 0 {
      PriorTurnsByRole(msgs[1..]);
      MessageTurnsByRole(msgs[0]);
      ContentsOfAppend(MessageTurns(msgs[0]), PriorTurns(msgs[1..]), User);
      ContentsOfAppend(MessageTurns(msgs[0]), PriorTurns(msgs[1..]), Assistant);
      assert Prompts(msgs)[1..] == Prompts(msgs[1..]);
      assert Responses(msgs)[1..] == Responses(msgs[1..]);
    }
  }

  /** The stored turns of a concatenation are the concatenation of the stored turns. */
  lemma {:induction false} PriorTurnsAppend(a: seq<Message>, b: seq<Message>)
    ensures PriorTurns(a + b) == PriorTurns(a) + PriorTurns(b)
  {
    if |a| > 0 {
      assert (a + b)[1..] == a[1..] + b;
      PriorTurnsAppend(a[1..], b);
    } else {
      assert a + b == b;
    }
  }

  /** `send` appends the pending message before the history is built, so a
      pending prompt without a response reaches the request twice in a row. */
  lemma PromptSentTwice(msgs: seq<Message>, m: Message)
    requires m.prompt.Some? && m.response.None?
    ensures var h := History(msgs + [m], m.prompt.value);
      |h| >= 2 && h[|h| - 2] == h[|h| - 1] == Turn(User, m.prompt.value)
  {
    PriorTurnsAppend(msgs, [m]);
    assert [m][1..] == [];
  }

  // ---------------------------------------------------------------------------
  // Reply
  // ---------------------------------------------------------------------------

  /** One element of `choices`: its `message.content`, which may be null. */
  datatype Choice = Choice(content: Option<string>)

  /** The decoded body, or the decoder's error description. */
  datatype Body = Decoded(choices: seq<Choice>) | Undecodable(description: string)

  /** What `URLSession` hands back: a transport failure, or a status and body. */
  datatype HttpReply = TransportFailure(description: string) | HttpResponse(status: int, body: Body)

  /** The errors `sendChatGPTRequest` can throw (`invalidURL` cannot happen:
      the endpoint is a constant, well-formed URL). */
  datatype RequestError =
    | InvalidResponse
    | Transport(description: string)
    | Decoding(description: string)

  /** Stands for the `localizedDescription` Foundation gives `APIError.invalidResponse`. */
  const InvalidResponseDescription := "APIError.invalidResponse"

  /** `error.localizedDescription` as `send` reports it. */
  function Describe(e: RequestError): string {
    match e
    case InvalidResponse => InvalidResponseDescription
    case Transport(d) => d
    case Decoding(d) => d
  }

  /** The outcome of `sendChatGPTRequest`: only status 200 with a decodable
      body succeeds; any other status is `invalidResponse`, checked before
      the body is decoded. */
  function Classify(reply: HttpReply): (r: Result<seq<Choice>, RequestError>)
    ensures r.Success? <==> reply.HttpResponse? && reply.status == 200 && reply.body.Decoded?
    ensures r.Success? ==> r.value == reply.body.choices
    ensures r == Failure(InvalidResponse) <==> reply.HttpResponse? && reply.status != 200
    ensures reply.TransportFailure? ==> r == Failure(Transport(reply.description))
  {
    match reply
    case TransportFailure(d) => Failure(Transport(d))
    case HttpResponse(status, body) =>
      if status != 200 then Failure(InvalidResponse)
      else match body
        case Decoded(choices) => Success(choices)
        case Undecodable(d) => Failure(Decoding(d))
  }

  /** There is no credentials-specific branch: a 401 is an invalid response. */
  lemma UnauthorizedIsInvalidResponse(body: Body)
    ensures Classify(HttpResponse(401, body)) == Failure(InvalidResponse)
  {
  }

  /** The text `handleChatGPTResponse` reveals: the first choice's content,
      when there is a first choice and its content is not null. */
  function RevealedContent(choices: seq<Choice>): (r: Option<string>)
    ensures r.Some? <==> |choices| > 0 && choices[0].content.Some?
    ensures r.Some? ==> r.value == choices[0].content.value
  {
    if |choices| > 0 then choices[0].content else None
  }

  // ---------------------------------------------------------------------------
  // Typing reveal
  // ---------------------------------------------------------------------------

  /** The message once the reveal has finished: its response is the reply's
      words joined by single spaces and it is done; nothing else changes. */
  function Revealed(m: Message, content: string): Message {
    m.(response := Some(JoinWords(SplitWords(content))), done := true)
  }

  /** One step of the reveal: the next word follows the text so far after a
      space, or alone while the text is still empty. */
  lemma RevealStep(words: seq<string>, i: nat)
    requires i < |words| && forall k :: 0 <= k < |words| ==> IsWord(words[k])
    ensures var current := JoinWords(words[..i]);
      JoinWords(words[..i + 1]) == current + (if |current| == 0 then "" else " ") + words[i]
  {
    JoinWordsSnoc(words[..i], words[i]);
    assert words[..i + 1] == words[..i] + [words[i]];
    if i > 0 {
      JoinWordsNonEmpty(words[..i]);
    } else {
      assert JoinWords(words[..i]) == "";
    }
  }

  /** The texts the reveal shows are prefixes of each other and of the end result. */
  lemma RevealPrefixes(words: seq<string>, steps: seq<string>)
    requires |steps| == |words| + 1
    requires forall k :: 0 <= k < |steps| ==> steps[k] == JoinWords(words[..k])
    ensures forall k :: 0 <= k < |steps| - 1 ==> steps[k] <= steps[k + 1]
    ensures forall k :: 0 <= k < |steps| ==> steps[k] <= JoinWords(words)
  {
    forall k | 0 <= k < |steps|
      ensures steps[k] <= JoinWords(words)
    {
      JoinWordsPrefix(words, k);
    }
    forall k | 0 <= k < |steps| - 1
      ensures steps[k] <= steps[k + 1]
    {
      JoinWordsPrefix(words[..k + 1], k);
      assert words[..k + 1][..k] == words[..k];
    }
  }

  /** `displayTypingEffect(for:content:)` without its pauses: the response is
      reset to "" and the words are appended one at a time, each after a
      space unless the response is still empty. `steps` lists every value the
      response takes: the k-th is the first k words joined by single spaces,
      so every value is a prefix of the next and of the final text, the
      first is "", and the message ends as `Revealed` says. */
  method DisplayTypingEffect(m: Message, content: string) returns (r: Message, steps: seq<string>)
    ensures r.response == Some(JoinWords(SplitWords(content))) && r.done
    ensures r.(response := m.response, done := m.done) == m
    ensures |steps| == |SplitWords(content)| + 1
    ensures steps[0] == "" && steps[|steps| - 1] == r.response.value
    ensures forall k :: 0 <= k < |steps| - 1 ==> steps[k] <= steps[k + 1]
    ensures forall k :: 0 <= k < |steps| ==> steps[k] <= r.response.value
    ensures forall k :: 0 <= k < |steps| ==> steps[k] == JoinWords(SplitWords(content)[..k])
  {
    var words := SplitWords(content);
    var message := m.(response := Some(""), done := false);
    steps := [""];
    var i := 0;
    while i < |words|
      invariant 0 <= i <= |words|
      invariant message == m.(response := Some(JoinWords(words[..i])), done := false)
      invariant |steps| == i + 1
      invariant forall k :: 0 <= k <= i ==> steps[k] == JoinWords(words[..k])
    {
      var current := message.response.value;
      RevealStep(words, i);
      message := message.(response := Some(current + (if |current| == 0 then "" else " ") + words[i]));
      steps := steps + [message.response.value];
      i := i + 1;
    }
    assert words[..i] == words;
    RevealPrefixes(words, steps);
    r := message.(done := true);
  }

  /** The reveal leaves a single-spaced reply exactly as the server sent it. */
  lemma RevealKeepsSingleSpacedText(m: Message, content: string)
    requires SingleSpaced(content)
    ensures Revealed(m, content).response == Some(content)
  {
    JoinSplitWords(content);
  }

  /** Runs of spaces in the reply come out as single spaces. */
  lemma RevealCollapsesSpaces(m: Message)
    ensures Revealed(m, "a  b").response == Some("a b")
  {
    assert "b"[1..] == "";
    assert FirstWord("b") == "b";
    assert SplitWords("b") == ["b"];
    assert " b"[1..] == "b";
    assert SplitWords(" b") == ["b"];
    assert "  b"[1..] == " b";
    assert SplitWords("  b") == ["b"];
    assert "a  b"[1..] == "  b";
    assert FirstWord("a  b") == "a";
    assert "a  b"[1..] == "  b";
    assert SplitWords("a  b") == ["a", "b"];
    assert ["a", "b"][1..] == ["b"];
    assert JoinWords(["a", "b"]) == "a" + " " + "b" == "a b";
  }
}

=== FILE: message.dfy ===
/** The persisted entities a conversation is made of. */
module Messages {
  import opened Wrappers
  import opened OllamaModels

  /** The `ViewState` of a send: in flight, or failed with a message.
      `nil` (no send under way) is `None` of an `Option<ViewState>`. */
  datatype ViewState = Loading | Error(message: string)

  /** `ViewState.errorMessage` on an optional state: the failure text, if any. */
  function ErrorMessage(v: Option<ViewState>): (r: Option<string>)
    ensures r.Some? <==> v.Some? && v.value.Error?
    ensures r.Some? ==> r.value == v.value.message
  {
    match v
    case Some(Error(m)) => Some(m)
    case _ => None
  }

  /** One prompt and the reply generated for it. `context` is the local
      server's continuation state, `createdAt` a timestamp and `chatId` the
      owning chat (the `chat` relationship). */
  datatype Message = Message(
    prompt: Option<string>,
    response: Option<string>,
    context: seq<int>,
    done: bool,
    error: bool,
    createdAt: int,
    chatId: Option<nat>)

  /** A conversation: `modifiedAt` is a day number, `model` its profile,
      `messages` the `messages` relationship in its stored order. */
  datatype Chat = Chat(
    id: nat,
    name: string,
    modifiedAt: int,
    model: Option<OllamaModel>,
    messages: seq<Message>)
}

=== FILE: message_list_item_view.dfy ===
/**
 * `MessageListItemView`: one row of the conversation. Its configuration is a
 * value built by modifier functions; its local state is hover, copy and the
 * flags of the speech playback button.
 */
module MessageListItemView {
  import opened Wrappers

  /** Shown when a row is flagged as failed without a message of its own. */
  const DefaultErrorText := "An error occurred"

  /** The playback flags `togglePlayPause` reads and writes: the delegate's
      `isAudioPlaying`, `isAudioLoading`, and the player, if one exists, with
      its own `isPlaying`. */
  datatype Playback = Playback(delegatePlaying: bool, loading: bool, player: Option<bool>)

  /** What the row's body shows. */
  datatype Body = Spinner | ErrorText(message: string) | MarkdownText(markdown: string)

  datatype ItemView = ItemView(
    text: string,
    isAssistant: bool,
    isGenerating: bool,
    isFinalMessage: bool,
    isError: bool,
    errorMessage: Option<string>,
    isHovered: bool,
    isCopied: bool,
    playback: Playback)
  {
    /** The copy button shows on a hovered assistant row that is not generating. */
    predicate IsCopyButtonVisible()
      ensures IsCopyButtonVisible() <==> isHovered && isAssistant && !Content().Spinner?
    {
      isHovered && isAssistant && !isGenerating
    }

    /** The regenerate button shows where the copy button does, on the final row only. */
    predicate IsRegenerateButtonVisible()
      ensures IsRegenerateButtonVisible() <==> isFinalMessage && isHovered && isAssistant && !Content().Spinner?
    {
      IsCopyButtonVisible() && isFinalMessage
    }

    /** The body's priority: a spinner while generating, else the error text
        when the row failed and has one, else the text as Markdown. */
    function Content(): (b: Body)
      ensures b.Spinner? <==> isGenerating
      ensures b.ErrorText? <==> !isGenerating && isError && errorMessage.Some?
      ensures b.ErrorText? ==> b.message == errorMessage.value
      ensures b.MarkdownText? ==> b.markdown == text
    {
      if isGenerating then Spinner
      else if isError && errorMessage.Some? then ErrorText(errorMessage.value)
      else MarkdownText(text)
    }

    // Modifiers: each returns a copy with one setting changed.

    function Assistant(flag: bool): (v: ItemView)
      ensures v.isAssistant == flag
      ensures v.(isAssistant := isAssistant) == this
    {
      this.(isAssistant := flag)
    }

    function Generating(flag: bool): (v: ItemView)
      ensures v.isGenerating == flag
      ensures v.(isGenerating := isGenerating) == this
    {
      this.(isGenerating := flag)
    }

    function FinalMessage(flag: bool): (v: ItemView)
      ensures v.isFinalMessage == flag
      ensures v.(isFinalMessage := isFinalMessage) == this
    {
      this.(isFinalMessage := flag)
    }

    /** `error(_:message:)`: a missing message is replaced by the default
        text, so the row always has one afterwards. */
    function Error(flag: bool, message: Option<string>): (v: ItemView)
      ensures v.isError == flag
      ensures v.errorMessage.Some?
      ensures message.Some? ==> v.errorMessage == message
      ensures message.None? ==> v.errorMessage == Some(DefaultErrorText)
      ensures v.(isError := isError, errorMessage := errorMessage) == this
    {
      this.(isError := flag, errorMessage := Some(message.GetOr(DefaultErrorText)))
    }

    /** `onHover`: records the hover and always clears the copied mark. */
    function Hover(hovering: bool): (v: ItemView)
      ensures v.isHovered == hovering && !v.isCopied
      ensures v.(isHovered := isHovered, isCopied := isCopied) == this
    {
      this.(isHovered := hovering, isCopied := false)
    }

    /** `copyAction`, without the pasteboard: the copied mark is set. */
    function Copy(): (v: ItemView)
      ensures v.isCopied
      ensures v.(isCopied := isCopied) == this
    {
      this.(isCopied := true)
    }
  }

  /** `init(_:regenerateAction:)`: the row's text and every flag at its default. */
  function NewItem(text: string): (v: ItemView)
    ensures v.text == text && v.errorMessage.None?
    ensures !v.isAssistant && !v.isGenerating && !v.isFinalMessage && !v.isError
    ensures !v.isHovered && !v.isCopied
    ensures v.playback == Playback(false, false, None)
  {
    ItemView(text, false, false, false, false, None, false, false, Playback(false, false, None))
  }

  /** Regenerate is offered only where copy is, and only on the final row. */
  lemma RegenerateNeedsFinalRow(v: ItemView)
    ensures v.IsRegenerateButtonVisible() <==> v.IsCopyButtonVisible() && v.isFinalMessage
    ensures !v.isFinalMessage ==> !v.IsRegenerateButtonVisible()
  {
  }

  /** Modifiers of different settings commute: the order in which a row is
      configured does not matter. */
  lemma ModifiersCommute(v: ItemView, a: bool, g: bool, f: bool)
    ensures v.Assistant(a).Generating(g) == v.Generating(g).Assistant(a)
    ensures v.Generating(g).FinalMessage(f) == v.FinalMessage(f).Generating(g)
  {
  }

  /** Applying a modifier twice keeps only the last setting. */
  lemma LastModifierWins(v: ItemView, a: bool, b: bool)
    ensures v.Assistant(a).Assistant(b) == v.Assistant(b)
  {
  }

  /** `togglePlayPause`, with the network request and the audio player
      abstracted to their flags: playing pauses; otherwise nothing happens
      while audio loads; otherwise an existing stopped player resumes; and
      otherwise speech starts loading. */
  function TogglePlayPause(p: Playback): (r: Playback)
    ensures p.delegatePlaying ==>
      && !r.delegatePlaying && r.loading == p.loading
      && r.player == (if p.player.Some? then Some(false) else None)
    ensures !p.delegatePlaying && p.loading ==> r == p
    ensures !p.delegatePlaying && !p.loading && p.player == Some(false) ==>
      r == Playback(true, false, Some(true))
    ensures !p.delegatePlaying && !p.loading && p.player != Some(false) ==>
      r == p.(loading := true)
  {
    if p.delegatePlaying then
      var paused := match p.player case Some(_) => Some(false) case None => None;
      p.(player := paused, delegatePlaying := false)
    else if !p.loading then
      if p.player == Some(false) then p.(player := Some(true), delegatePlaying := true)
      else p.(loading := true)
    else p
  }

  /** Pausing playback and toggling again resumes exactly where it was. */
  lemma PauseThenResume(p: Playback)
    requires p.delegatePlaying && !p.loading && p.player == Some(true)
    ensures TogglePlayPause(TogglePlayPause(p)) == p
  {
  }
}

=== FILE: message_view.dfy ===
/**
 * `MessageView`: the guards in front of send and regenerate, the context a
 * new or regenerated message carries, and the flags each row is given.
 */
module MessageView {
  import opened Wrappers
  import opened Text
  import opened Messages
  import opened HostedApi
  import opened MessageViewModel
  import opened MessageListItemView

  /** `isGenerating`: a send is loading, which is exactly when the state is
      set but carries no failure text. */
  predicate IsGenerating(s: Session)
    ensures IsGenerating(s) <==> s.sendViewState.Some? && ErrorMessage(s.sendViewState).None?
  {
    s.sendViewState == Some(Loading)
  }

  /** The context of the chat's last message, or empty when the chat has none. */
  function LastContext(msgs: seq<Message>): (c: seq<int>)
    ensures |msgs| == 0 ==> c == []
    ensures |msgs| > 0 ==> c == msgs[|msgs| - 1].context
  {
    if |msgs| == 0 then [] else msgs[|msgs| - 1].context
  }

  /** The message `sendAction` creates: the prompt, no response yet, the
      context of the chat's last message, and the chat it belongs to. */
  function PendingMessage(chat: Chat, prompt: string, now: int): (m: Message)
    ensures m.prompt == Some(prompt) && m.response.None?
    ensures m.context == LastContext(chat.messages) && m.chatId == Some(chat.id)
    ensures !m.done && !m.error
  {
    Message(Some(prompt), None, LastContext(chat.messages), false, false, now, Some(chat.id))
  }

  /** The result of a user action: the session after it, what was sent, and
      the composer's prompt text after it. */
  datatype ActionResult = ActionResult(outcome: Outcome, prompt: string)

  /** `sendAction`: ignored while the state is set (loading or failed) or
      when the prompt is only whitespace and newlines. Otherwise the chat is
      saved first (`modifySucceeds` says whether that succeeds); a failed
      save ends the action with the prompt kept and nothing sent, and a
      successful one clears the prompt and sends the new message with the
      chat's model. */
  function SendAction(s: Session, chat: Chat, prompt: string, now: int, env: Environment, modifySucceeds: bool)
    : (r: ActionResult)
    ensures s.sendViewState.Some? ==> r == ActionResult(Outcome(s, NoRequest), prompt)
    ensures IsBlank(prompt) ==> r == ActionResult(Outcome(s, NoRequest), prompt)
    ensures !modifySucceeds ==> r == ActionResult(Outcome(s, NoRequest), prompt)
    ensures s.sendViewState.None? && !IsBlank(prompt) && modifySucceeds ==>
      var n := |s.messages|;
      && r.prompt == ""
      && |r.outcome.session.messages| == n + 1
      && r.outcome.session.messages[..n] == s.messages
      && r.outcome.session.messages[n].prompt == Some(prompt)
      && r.outcome.session.messages[n].context == LastContext(chat.messages)
      && r.outcome.session.messages[n].chatId == Some(chat.id)
  {
    if s.sendViewState.Some? || |Trim(prompt)| == 0 || !modifySucceeds then
      ActionResult(Outcome(s, NoRequest), prompt)
    else
      var m := PendingMessage(chat, prompt, now);
      var sent := Send(s, m, chat.model, env);
      ActionResult(sent, "")
  }

  /** The context `regenerateAction` gives the message: that of the message
      before the last when there is one, else empty. */
  function RegenerateContext(msgs: seq<Message>): (c: seq<int>)
    ensures |msgs| >= 2 ==> c == msgs[|msgs| - 2].context
    ensures |msgs| < 2 ==> c == []
  {
    var lastIndex := |msgs| - 1;
    if lastIndex > 0 then msgs[lastIndex - 1].context else []
  }

  /** `regenerateAction(for:)`: ignored while the state is set (loading or
      failed); otherwise the message loses its response, takes the context
      of the message before the last (or none), and replaces the last
      message. The chat is then saved (`modifySucceeds`): a failed save ends
      the action there, with the last message already reset and nothing
      sent; a successful one regenerates it with the chat's model. The button
      that calls it exists only on a row, so the list is not empty. */
  function RegenerateAction(s: Session, message: Message, chat: Chat, env: Environment, modifySucceeds: bool)
    : (r: Outcome)
    requires |s.messages| > 0
    ensures s.sendViewState.Some? ==> r == Outcome(s, NoRequest)
    ensures s.sendViewState.None? ==>
      var n := |s.messages| - 1;
      && SameExceptAt(s.messages, r.session.messages, n)
      && r.session.messages[n].prompt == message.prompt
      && r.session.messages[n].context == RegenerateContext(s.messages)
    ensures s.sendViewState.None? && r.dispatch.NoRequest? ==>
      r.session.messages[|s.messages| - 1].response.None?
    ensures s.sendViewState.None? && modifySucceeds && chat.model.Some? && chat.model.value.isAPI ==>
      && r.dispatch.HostedRequest?
      && r.dispatch.request.messages == History(
           s.messages[|s.messages| - 1 := message.(context := RegenerateContext(s.messages), response := None)],
           message.prompt.GetOr(""))
    ensures s.sendViewState.None? && !modifySucceeds ==>
      && r.dispatch == NoRequest
      && r.session.sendViewState == None && r.session.streaming == s.streaming
      && r.session.messages[|s.messages| - 1] == message.(context := RegenerateContext(s.messages), response := None)
  {
    if s.sendViewState.Some? then Outcome(s, NoRequest)
    else
      var reset := message.(context := [], response := None);
      var m := reset.(context := RegenerateContext(s.messages));
      if !modifySucceeds then Outcome(s.(messages := s.messages[|s.messages| - 1 := m]), NoRequest)
      else Regenerate(s, m, chat.model, env)
  }

  /** A regenerate that opens a local stream starts from an empty response,
      so the whole new reply comes from the stream. */
  lemma RegenerateStartsEmpty(s: Session, message: Message, chat: Chat, env: Environment)
    requires |s.messages| > 0 && s.sendViewState.None?
    requires chat.model.Some? && !chat.model.value.isAPI && env.reachable
    ensures var r := RegenerateAction(s, message, chat, env, true).session;
      && r.messages[|s.messages| - 1].response.None?
      && IsGenerating(r) && r.streaming
  {
  }

  /** The prompt row of message `i`. */
  function PromptRow(s: Session, i: nat): (v: ItemView)
    requires i < |s.messages|
    ensures v.text == s.messages[i].prompt.GetOr("")
    ensures !v.isAssistant && !v.isGenerating && !v.isFinalMessage
    ensures !v.isError && v.errorMessage.None? && !v.isHovered
  {
    NewItem(s.messages[i].prompt.GetOr("")).Assistant(false)
  }

  /** The response row of message `i`, with its flags. */
  function ResponseRow(s: Session, i: nat): (v: ItemView)
    requires i < |s.messages|
    ensures v.isAssistant && v.text == s.messages[i].response.GetOr("")
    ensures v.isGenerating <==> s.messages[i].response.None? && IsGenerating(s)
    ensures v.isFinalMessage <==> i == |s.messages| - 1
    ensures v.isError == s.messages[i].error
    ensures v.errorMessage == Some(ErrorMessage(s.sendViewState).GetOr(DefaultErrorText))
  {
    var m := s.messages[i];
    NewItem(m.response.GetOr(""))
      .Assistant(true)
      .Generating(m.response.None? && IsGenerating(s))
      .FinalMessage(i == |s.messages| - 1)
      .Error(m.error, ErrorMessage(s.sendViewState))
  }

  /** Whatever the hover state, only the last response row can offer
      regenerate; a hovered response row offers copy exactly when it is not
      waiting for its response; and a row shows the spinner exactly while
      its response is nil and a send is loading. */
  lemma RowFlags(s: Session, i: nat, hovering: bool)
    requires i < |s.messages|
    ensures ResponseRow(s, i).Hover(hovering).IsRegenerateButtonVisible() ==> i == |s.messages| - 1
    ensures ResponseRow(s, i).Hover(true).IsCopyButtonVisible() <==> !(s.messages[i].response.None? && IsGenerating(s))
    ensures ResponseRow(s, i).Hover(true).IsRegenerateButtonVisible() <==>
      i == |s.messages| - 1 && !(s.messages[i].response.None? && IsGenerating(s))
    ensures !PromptRow(s, i).Hover(hovering).IsCopyButtonVisible()
    ensures ResponseRow(s, i).Content() == Spinner <==> s.messages[i].response.None? && IsGenerating(s)
  {
  }

  /** While the state is loading neither action does anything: no second
      message is added and no second request is sent from this state. */
  lemma OneGenerationAtATime(s: Session, chat: Chat, prompt: string, now: int, message: Message, env: Environment,
                             modifySucceeds: bool)
    requires IsGenerating(s)
    ensures SendAction(s, chat, prompt, now, env, modifySucceeds).outcome == Outcome(s, NoRequest)
    ensures |s.messages| > 0 ==> RegenerateAction(s, message, chat, env, modifySucceeds) == Outcome(s, NoRequest)
  {
  }
}

=== FILE: message_view_model.dfy ===
/**
 * `MessageViewModel`: the messages of the open chat and the state of the
 * send in flight, with one pure transition per handler. Network answers
 * (reachability, the hosted reply, the local stream's events) are inputs.
 */
module MessageViewModel {
  import opened Wrappers
  import opened Text
  import opened OllamaModels
  import opened Messages
  import opened HostedApi

  /** The view model's state. `streaming` says whether the local generate
      stream (`generation`) is still subscribed and delivering events. */
  datatype Session = Session(
    messages: seq<Message>,
    sendViewState: Option<ViewState>,
    streaming: bool)

  /** A fresh view model: no messages, nothing in flight. */
  const Initial := Session([], None, false)

  const NoModelText := "No chat or model found for the message"
  const InvalidChatGPTResponseText := "Invalid ChatGPT response"
  /** Stands for `AppMessages.ollamaServerUnreachable`, whose text is not
      part of this model. */
  const OllamaServerUnreachable := "AppMessages.ollamaServerUnreachable"

  /** What the view model sends out: nothing, one hosted request, or the
      local generate request that opens a stream. */
  datatype Dispatch =
    | NoRequest
    | HostedRequest(request: ChatRequest)
    | LocalRequest(generate: GenerateRequest)

  /** The local generate request: model name, prompt and context. */
  datatype GenerateRequest = GenerateRequest(model: string, prompt: string, context: seq<int>)

  /** The answers the outside world gives a send: whether the local server
      answers its liveness probe, the settings' API key, and the HTTP reply a
      hosted request receives. */
  datatype Environment = Environment(reachable: bool, apiKey: string, reply: HttpReply)

  datatype Outcome = Outcome(session: Session, dispatch: Dispatch)

  /** One event of the local generate stream. */
  datatype StreamEvent =
    | Chunk(text: string, context: seq<int>)
    | Finished
    | Failed(description: string)

  // ---------------------------------------------------------------------------
  // Helpers for stating "only the last message changed"
  // ---------------------------------------------------------------------------

  /** `after` has the same length as `before` and agrees with it everywhere
      but at index `k`. */
  predicate SameExceptAt(before: seq<Message>, after: seq<Message>, k: nat) {
    && |after| == |before|
    && forall i :: 0 <= i < |before| && i != k ==> after[i] == before[i]
  }

  /** The two messages agree on what a generation never writes. */
  predicate SameIdentity(a: Message, b: Message) {
    a.prompt == b.prompt && a.createdAt == b.createdAt && a.chatId == b.chatId
  }

  // ---------------------------------------------------------------------------
  // Stream handlers
  // ---------------------------------------------------------------------------

  /** `handleReceive`: a chunk is appended, with no separator, to the last
      message's response (nil counts as "") and its context is replaced. */
  function HandleReceive(s: Session, chunk: string, context: seq<int>): (r: Session)
    ensures |s.messages| == 0 ==> r == s
    ensures |s.messages| > 0 ==>
      var n := |s.messages| - 1;
      && SameExceptAt(s.messages, r.messages, n)
      && SameIdentity(r.messages[n], s.messages[n])
      && r.messages[n].response == Some(s.messages[n].response.GetOr("") + chunk)
      && r.messages[n].context == context
      && r.messages[n].done == s.messages[n].done
      && r.messages[n].error == s.messages[n].error
      && r.sendViewState == Some(Loading)
      && r.streaming == s.streaming
  {
    if |s.messages| == 0 then s
    else
      var n := |s.messages| - 1;
      var m := s.messages[n];
      var previous := m.response.GetOr("");
      s.(messages := s.messages[n := m.(context := context, response := Some(previous + chunk))],
         sendViewState := Some(Loading))
  }

  /** `handleError`: the last message is marked failed and the state carries the text. */
  function HandleError(s: Session, errorMessage: string): (r: Session)
    ensures |s.messages| == 0 ==> r == s
    ensures |s.messages| > 0 ==>
      var n := |s.messages| - 1;
      && SameExceptAt(s.messages, r.messages, n)
      && r.messages[n] == s.messages[n].(error := true, done := false)
      && r.sendViewState == Some(Error(errorMessage))
      && r.streaming == s.streaming
  {
    if |s.messages| == 0 then s
    else
      var n := |s.messages| - 1;
      s.(messages := s.messages[n := s.messages[n].(error := true, done := false)],
         sendViewState := Some(Error(errorMessage)))
  }

  /** `handleComplete`: the last message is marked done and the state is cleared. */
  function HandleComplete(s: Session): (r: Session)
    ensures |s.messages| == 0 ==> r == s
    ensures |s.messages| > 0 ==>
      var n := |s.messages| - 1;
      && SameExceptAt(s.messages, r.messages, n)
      && r.messages[n] == s.messages[n].(error := false, done := true)
      && r.sendViewState == None
      && r.streaming == s.streaming
  {
    if |s.messages| == 0 then s
    else
      var n := |s.messages| - 1;
      s.(messages := s.messages[n := s.messages[n].(error := false, done := true)],
         sendViewState := None)
  }

  /** `stopGenerate`: the state is cleared and the local generate stream is
      cancelled; the messages stay exactly as last written. A hosted request
      already sent is not cancelled (see `Generate`). */
  function StopGenerate(s: Session): (r: Session)
    ensures r.messages == s.messages
    ensures r.sendViewState == None && !r.streaming
  {
    s.(sendViewState := None, streaming := false)
  }

  /** Stopping twice is stopping once. */
  lemma StopGenerateIdempotent(s: Session)
    ensures StopGenerate(StopGenerate(s)) == StopGenerate(s)
  {
  }

  /** The `sink` of the generate stream: an event reaches its handler only
      while the subscription is live; completion and failure end it. */
  function Deliver(s: Session, e: StreamEvent): (r: Session)
    ensures !s.streaming ==> r == s
    ensures s.streaming && e.Chunk? ==> r == HandleReceive(s, e.text, e.context) && r.streaming
    ensures s.streaming && e.Finished? ==>
      var c := HandleComplete(s); r.messages == c.messages && r.sendViewState == c.sendViewState && !r.streaming
    ensures s.streaming && e.Failed? ==>
      var f := HandleError(s, e.description);
      r.messages == f.messages && r.sendViewState == f.sendViewState && !r.streaming
    ensures |r.messages| == |s.messages|
  {
    if !s.streaming then s
    else match e
      case Chunk(text, context) => HandleReceive(s, text, context)
      case Finished => HandleComplete(s).(streaming := false)
      case Failed(description) => HandleError(s, description).(streaming := false)
  }

  /** Delivers the events in order. */
  function DeliverAll(s: Session, es: seq<StreamEvent>): (r: Session)
    ensures !s.streaming ==> r == s
    ensures r.streaming ==> s.streaming
    ensures |r.messages| == |s.messages|
    decreases |es|
  {
    if |es| == 0 then s else DeliverAll(Deliver(s, es[0]), es[1..])
  }

  predicate AllChunks(es: seq<StreamEvent>) {
    forall i :: 0 <= i < |es| ==> es[i].Chunk?
  }

  /** The chunks' texts run together, with nothing between them. */
  function ChunkText(es: seq<StreamEvent>): string
    requires AllChunks(es)
  {
    if |es| == 0 then "" else es[0].text + ChunkText(es[1..])
  }

  /** After one or more chunks c1..cn on a live stream, the last response is
      the old one (nil as "") followed by c1+…+cn and its context is cn's;
      after none, both are as they were. No other message and no other field
      of the last message changes. */
  lemma {:induction false} ChunksConcatenate(s: Session, es: seq<StreamEvent>)
    requires s.streaming && |s.messages| > 0 && AllChunks(es)
    ensures var r := DeliverAll(s, es); var n := |s.messages| - 1;
      && SameExceptAt(s.messages, r.messages, n)
      && r.messages[n].response
           == (if |es| == 0 then s.messages[n].response else Some(s.messages[n].response.GetOr("") + ChunkText(es)))
      && r.messages[n].context == (if |es| == 0 then s.messages[n].context else es[|es| - 1].context)
      && SameIdentity(r.messages[n], s.messages[n])
      && r.messages[n].done == s.messages[n].done
      && r.messages[n].error == s.messages[n].error
      && r.streaming
      && (|es| > 0 ==> r.sendViewState == Some(Loading))
    decreases |es|
  {
    if |es| > 0 {
      var s1 := Deliver(s, es[0]);
      var n := |s.messages| - 1;
      assert s1 == HandleReceive(s, es[0].text, es[0].context);
      assert AllChunks(es[1..]) by {
        forall i | 0 <= i < |es[1..]| ensures es[1..][i].Chunk? { assert es[1..][i] == es[i + 1]; }
      }
      ChunksConcatenate(s1, es[1..]);
      var tail := es[1..];
      if |tail| > 0 {
        assert tail[|tail| - 1] == es[|es| - 1];
      }
      assert ChunkText(es) == es[0].text + ChunkText(tail);
      var r := DeliverAll(s, es);
      assert r == DeliverAll(s1, tail);
      assert |s1.messages| == |s.messages|;
      assert r.messages[n].response.GetOr("") == s1.messages[n].response.GetOr("") + ChunkText(tail);
      assert s1.messages[n].response.GetOr("") == s.messages[n].response.GetOr("") + es[0].text;
      assert s.messages[n].response.GetOr("") + es[0].text + ChunkText(tail)
          == s.messages[n].response.GetOr("") + ChunkText(es);
    }
  }

  /** Once stopped, later stream events change nothing. */
  lemma {:induction false} NothingAfterStop(s: Session, es: seq<StreamEvent>)
    ensures DeliverAll(StopGenerate(s), es) == StopGenerate(s)
    decreases |es|
  {
    if |es| > 0 {
      NothingAfterStop(s, es[1..]);
      assert Deliver(StopGenerate(s), es[0]) == StopGenerate(s);
      assert StopGenerate(StopGenerate(s)) == StopGenerate(s);
    }
  }

  /** Stopping after the first k events keeps what those events wrote and
      nothing else: when they were all chunks, the last response is the old
      one followed by exactly those chunks, with done and error untouched. */
  lemma CancelKeepsDeliveredPrefix(s: Session, es: seq<StreamEvent>, k: nat)
    requires s.streaming && |s.messages| > 0 && k <= |es| && AllChunks(es[..k])
    ensures var r := DeliverAll(StopGenerate(DeliverAll(s, es[..k])), es[k..]);
      var n := |s.messages| - 1;
      && r.sendViewState == None
      && SameExceptAt(s.messages, r.messages, n)
      && r.messages[n].response.GetOr("") == s.messages[n].response.GetOr("") + ChunkText(es[..k])
      && r.messages[n].done == s.messages[n].done
      && r.messages[n].error == s.messages[n].error
  {
    NothingAfterStop(DeliverAll(s, es[..k]), es[k..]);
    ChunksConcatenate(s, es[..k]);
  }

  // ---------------------------------------------------------------------------
  // Hosted handlers (they write the message the request was made for)
  // ---------------------------------------------------------------------------

  /** `handleChatGPTError(_:for:)`: the target message is marked failed and
      the state carries the text. The target is the message's index at
      dispatch; if it is no longer in the list only the state changes. */
  function HandleChatGPTError(s: Session, target: nat, errorMessage: string): (r: Session)
    ensures SameExceptAt(s.messages, r.messages, target)
    ensures target < |s.messages| ==> r.messages[target] == s.messages[target].(error := true, done := false)
    ensures r.sendViewState == Some(Error(errorMessage)) && r.streaming == s.streaming
  {
    var messages := if target < |s.messages|
      then s.messages[target := s.messages[target].(error := true, done := false)]
      else s.messages;
    s.(messages := messages, sendViewState := Some(Error(errorMessage)))
  }

  /** `displayTypingEffect` once its loop is over: the target holds the
      revealed text and is done, and the state is cleared. */
  function TypingReveal(s: Session, target: nat, content: string): (r: Session)
    ensures SameExceptAt(s.messages, r.messages, target)
    ensures target < |s.messages| ==> r.messages[target] == Revealed(s.messages[target], content)
    ensures r.sendViewState == None && r.streaming == s.streaming
  {
    var messages := if target < |s.messages|
      then s.messages[target := Revealed(s.messages[target], content)]
      else s.messages;
    s.(messages := messages, sendViewState := None)
  }

  /** `handleChatGPTResponse(_:for:)`: reveal the first choice's content, or
      fail with "Invalid ChatGPT response" when there is none. */
  function HandleChatGPTResponse(s: Session, target: nat, choices: seq<Choice>): (r: Session)
    ensures RevealedContent(choices).Some? ==> r == TypingReveal(s, target, RevealedContent(choices).value)
    ensures RevealedContent(choices).None? ==> r == HandleChatGPTError(s, target, InvalidChatGPTResponseText)
  {
    match RevealedContent(choices)
    case Some(content) => TypingReveal(s, target, content)
    case None => HandleChatGPTError(s, target, InvalidChatGPTResponseText)
  }

  // ---------------------------------------------------------------------------
  // send / regenerate
  // ---------------------------------------------------------------------------

  /** The backend choice shared by `send` and `regenerate`, once the message
      is in place as the last element and the state is loading: no model
      fails at once; a hosted profile makes one request and handles its
      reply; a local model needs the server to be reachable and then opens
      the generate stream. */
  function Generate(s: Session, model: Option<OllamaModel>, env: Environment): (r: Outcome)
    requires |s.messages| > 0
    ensures SameExceptAt(s.messages, r.session.messages, |s.messages| - 1)
    ensures model.None? ==>
      r == Outcome(HandleError(s, NoModelText), NoRequest)
    ensures model.Some? && model.value.isAPI ==>
      r.dispatch == HostedRequest(ChatGPTRequest(s.messages, s.messages[|s.messages| - 1].prompt.GetOr(""), env.apiKey))
    ensures model.Some? && !model.value.isAPI && !env.reachable ==>
      r == Outcome(HandleError(s, OllamaServerUnreachable), NoRequest)
    ensures model.Some? && !model.value.isAPI && env.reachable ==>
      && r.session == s.(streaming := true)
      && r.dispatch.LocalRequest?
      && r.dispatch.generate.model == model.value.name
  {
    var n := |s.messages| - 1;
    var m := s.messages[n];
    match model
    case None => Outcome(HandleError(s, NoModelText), NoRequest)
    case Some(profile) =>
      if profile.isAPI then
        var request := ChatGPTRequest(s.messages, m.prompt.GetOr(""), env.apiKey);
        var after := match Classify(env.reply)
          case Success(choices) => HandleChatGPTResponse(s, n, choices)
          case Failure(e) => HandleChatGPTError(s, n, Describe(e));
        Outcome(after, HostedRequest(request))
      else if env.reachable then
        Outcome(s.(streaming := true), LocalRequest(GenerateRequest(profile.name, m.prompt.GetOr(""), m.context)))
      else
        Outcome(HandleError(s, OllamaServerUnreachable), NoRequest)
  }

  /** `send(_:)`: the state becomes loading, the message is appended, and
      the backend is chosen as `Generate` says. */
  function Send(s: Session, m: Message, model: Option<OllamaModel>, env: Environment): (r: Outcome)
    ensures |r.session.messages| == |s.messages| + 1
    ensures r.session.messages[..|s.messages|] == s.messages
    ensures r.session.messages[|s.messages|].prompt == m.prompt
    ensures r.session.messages[|s.messages|].context == m.context
    ensures r.session.messages[|s.messages|].chatId == m.chatId
    ensures model.Some? && !model.value.isAPI && env.reachable ==>
      r.session == Session(s.messages + [m], Some(Loading), true)
  {
    var loading := s.(messages := s.messages + [m], sendViewState := Some(Loading));
    Generate(loading, model, env)
  }

  /** `regenerate(_:)`: the state becomes loading, the last message is
      replaced, and the backend is chosen as `Generate` says. An empty list
      traps in the source (index `endIndex - 1`), hence the precondition. */
  function Regenerate(s: Session, m: Message, model: Option<OllamaModel>, env: Environment): (r: Outcome)
    requires |s.messages| > 0
    ensures SameExceptAt(s.messages, r.session.messages, |s.messages| - 1)
    ensures r.session.messages[|s.messages| - 1].prompt == m.prompt
    ensures r.session.messages[|s.messages| - 1].context == m.context
    ensures model.Some? && !model.value.isAPI && env.reachable ==>
      r.session == Session(s.messages[|s.messages| - 1 := m], Some(Loading), true)
  {
    var n := |s.messages| - 1;
    var loading := s.(messages := s.messages[n := m], sendViewState := Some(Loading));
    Generate(loading, model, env)
  }

  /** Backend selection for a send, case by case. No model, or a local model
      whose server is unreachable, ends in a failed message and no generate
      stream; a hosted profile (whatever its name) sends one "gpt-4o"
      request whose history already holds the new message. */
  lemma SendSelectsBackend(s: Session, m: Message, model: Option<OllamaModel>, env: Environment)
    ensures var r := Send(s, m, model, env); var n := |s.messages|;
      && (model.None? ==>
            && r.dispatch == NoRequest && r.session.streaming == s.streaming
            && r.session.sendViewState == Some(Error(NoModelText))
            && r.session.messages[n] == m.(error := true, done := false))
      && (model.Some? && !model.value.isAPI && !env.reachable ==>
            && r.dispatch == NoRequest && r.session.streaming == s.streaming
            && r.session.sendViewState == Some(Error(OllamaServerUnreachable))
            && r.session.messages[n] == m.(error := true, done := false))
      && (model.Some? && model.value.isAPI ==>
            && r.dispatch.HostedRequest?
            && r.dispatch.request.model == "gpt-4o"
            && r.dispatch.request.messages == History(s.messages + [m], m.prompt.GetOr(""))
            && r.session.sendViewState != Some(Loading)
            && r.session.streaming == s.streaming)
  {
    var loading := s.(messages := s.messages + [m], sendViewState := Some(Loading));
    assert loading.messages[|s.messages|] == m;
  }

  /** How a hosted reply ends a send: a transport failure fails the message
      with the failure's description; a non-200 status with the
      invalid-response error; a 200 reply whose body does not decode with the
      decoder's description; a decoded reply without a first choice's content
      with "Invalid ChatGPT response"; otherwise the message holds the
      content's words joined by single spaces, is done, and the state is
      cleared. */
  lemma HostedReplyOutcome(s: Session, m: Message, profile: OllamaModel, env: Environment)
    requires profile.isAPI
    ensures var r := Send(s, m, Some(profile), env).session; var n := |s.messages|;
      && (env.reply.HttpResponse? && env.reply.status != 200 ==>
            && r.sendViewState == Some(Error(InvalidResponseDescription))
            && r.messages[n] == m.(error := true, done := false))
      && (env.reply.TransportFailure? ==>
            && r.sendViewState == Some(Error(env.reply.description))
            && r.messages[n] == m.(error := true, done := false))
      && (env.reply.HttpResponse? && env.reply.status == 200 && env.reply.body.Undecodable? ==>
            && r.sendViewState == Some(Error(env.reply.body.description))
            && r.messages[n] == m.(error := true, done := false))
      && (env.reply.HttpResponse? && env.reply.status == 200 && env.reply.body.Decoded? ==>
            var content := RevealedContent(env.reply.body.choices);
            && (content.None? ==>
                  && r.sendViewState == Some(Error(InvalidChatGPTResponseText))
                  && r.messages[n] == m.(error := true, done := false))
            && (content.Some? ==>
                  && r.sendViewState == None
                  && r.messages[n].response == Some(JoinWords(SplitWords(content.value)))
                  && r.messages[n].done
                  && r.messages[n].error == m.error))
  {
    var loading := s.(messages := s.messages + [m], sendViewState := Some(Loading));
    assert loading.messages[|s.messages|] == m;
  }
  /** How a hosted reply ends a regenerate: the same five cases as for a
      send, applied to the replaced last message. */
  lemma RegenerateHostedReplyOutcome(s: Session, m: Message, profile: OllamaModel, env: Environment)
    requires |s.messages| > 0 && profile.isAPI
    ensures var r := Regenerate(s, m, Some(profile), env).session; var n := |s.messages| - 1;
      && SameExceptAt(s.messages, r.messages, n)
      && (env.reply.HttpResponse? && env.reply.status != 200 ==>
            && r.sendViewState == Some(Error(InvalidResponseDescription))
            && r.messages[n] == m.(error := true, done := false))
      && (env.reply.TransportFailure? ==>
            && r.sendViewState == Some(Error(env.reply.description))
            && r.messages[n] == m.(error := true, done := false))
      && (env.reply.HttpResponse? && env.reply.status == 200 && env.reply.body.Undecodable? ==>
            && r.sendViewState == Some(Error(env.reply.body.description))
            && r.messages[n] == m.(error := true, done := false))
      && (env.reply.HttpResponse? && env.reply.status == 200 && env.reply.body.Decoded? ==>
            var content := RevealedContent(env.reply.body.choices);
            && (content.None? ==>
                  && r.sendViewState == Some(Error(InvalidChatGPTResponseText))
                  && r.messages[n] == m.(error := true, done := false))
            && (content.Some? ==>
                  && r.sendViewState == None
                  && r.messages[n].response == Some(JoinWords(SplitWords(content.value)))
                  && r.messages[n].done
                  && r.messages[n].error == m.error))
  {
    var n := |s.messages| - 1;
    var loading := s.(messages := s.messages[n := m], sendViewState := Some(Loading));
    assert loading.messages[n] == m;
  }


  // ---------------------------------------------------------------------------
  // fetch(for:)
  // ---------------------------------------------------------------------------

  predicate SortedByCreatedAt(s: seq<Message>) {
    forall i, j :: 0 <= i < j < |s| ==> s[i].createdAt <= s[j].createdAt
  }

  /** The stored messages that belong to the chat, in store order. */
  function MessagesOf(store: seq<Message>, chatId: nat): (r: seq<Message>)
    ensures forall m :: multiset(r)[m] == if m.chatId == Some(chatId) then multiset(store)[m] else 0
  {
    if |store| == 0 then []
    else
      assert store == [store[0]] + store[1..];
      (if store[0].chatId == Some(chatId) then [store[0]] else []) + MessagesOf(store[1..], chatId)
  }

  /** Every element of a list that holds the tail of a sorted list and one
      later element comes no earlier than the list's head. */
  lemma HeadPrecedes(s: seq<Message>, m: Message, rest: seq<Message>)
    requires SortedByCreatedAt(s) && |s| > 0 && s[0].createdAt <= m.createdAt
    requires multiset(rest) == multiset(s[1..]) + multiset{m}
    ensures forall x :: x in rest ==> s[0].createdAt <= x.createdAt
  {
    forall x | x in rest ensures s[0].createdAt <= x.createdAt {
      assert x in multiset(rest);
      if x != m {
        assert x in multiset(s[1..]);
        var j :| 0 <= j < |s[1..]| && s[1..][j] == x;
        assert s[j + 1] == x;
      }
    }
  }

  function InsertByCreatedAt(m: Message, s: seq<Message>): (r: seq<Message>)
    requires SortedByCreatedAt(s)
    ensures SortedByCreatedAt(r)
    ensures multiset(r) == multiset(s) + multiset{m}
  {
    if |s| == 0 then [m]
    else if m.createdAt <= s[0].createdAt then [m] + s
    else
      var rest := InsertByCreatedAt(m, s[1..]);
      assert s == [s[0]] + s[1..];
      HeadPrecedes(s, m, rest);
      [s[0]] + rest
  }

  /** Insertion sort on the creation timestamp. */
  function SortByCreatedAt(s: seq<Message>): (r: seq<Message>)
    ensures SortedByCreatedAt(r)
    ensures multiset(r) == multiset(s)
  {
    if |s| == 0 then []
    else
      assert s == [s[0]] + s[1..];
      InsertByCreatedAt(s[0], SortByCreatedAt(s[1..]))
  }

  /** `fetch(for:)`: the messages become exactly the stored messages of the
      chat, each as often as stored, sorted by creation time. */
  function FetchFor(s: Session, store: seq<Message>, chat: Chat): (r: Session)
    ensures SortedByCreatedAt(r.messages)
    ensures forall m :: multiset(r.messages)[m] == if m.chatId == Some(chat.id) then multiset(store)[m] else 0
    ensures r.sendViewState == s.sendViewState && r.streaming == s.streaming
  {
    s.(messages := SortByCreatedAt(MessagesOf(store, chat.id)))
  }

  // ---------------------------------------------------------------------------
  // Single generation in flight
  // ---------------------------------------------------------------------------

  /** A live stream always comes with the loading state. */
  predicate StreamImpliesLoading(s: Session) {
    s.streaming ==> s.sendViewState == Some(Loading)
  }

  /** Stream events and stopping keep the invariant. */
  lemma {:induction false} DeliverKeepsInvariant(s: Session, es: seq<StreamEvent>)
    requires StreamImpliesLoading(s)
    ensures StreamImpliesLoading(DeliverAll(s, es))
    decreases |es|
  {
    if |es| > 0 {
      DeliverKeepsInvariant(Deliver(s, es[0]), es[1..]);
    }
  }

  /** Starting from an idle session (nothing in flight, no live stream), a
      send leaves the invariant in place whichever backend it reaches. */
  lemma SendKeepsInvariant(s: Session, m: Message, model: Option<OllamaModel>, env: Environment)
    requires s.sendViewState.None? && StreamImpliesLoading(s)
    ensures StreamImpliesLoading(Send(s, m, model, env).session)
  {
    SendSelectsBackend(s, m, model, env);
  }

  /** The same holds for regenerate. */
  lemma RegenerateKeepsInvariant(s: Session, m: Message, model: Option<OllamaModel>, env: Environment)
    requires |s.messages| > 0 && s.sendViewState.None? && StreamImpliesLoading(s)
    ensures StreamImpliesLoading(Regenerate(s, m, model, env).session)
  {
    var n := |s.messages| - 1;
    var loading := s.(messages := s.messages[n := m], sendViewState := Some(Loading));
    assert loading.messages[n] == m;
  }

  // ---------------------------------------------------------------------------
  // A scenario
  // ---------------------------------------------------------------------------

  /** Prompt "Hello" to a reachable local model whose stream sends "Hi" and
      "there!" and then finishes: the response is "Hithere!" (chunks are not
      separated), the message is done and not failed, and the state is cleared. */
  lemma LocalStreamScenario(m: Message, profile: OllamaModel, env: Environment, c1: seq<int>, c2: seq<int>)
    requires m.prompt == Some("Hello") && m.response.None? && !m.done && !m.error
    requires !profile.isAPI && env.reachable
    ensures var sent := Send(Initial, m, Some(profile), env);
      var r := DeliverAll(sent.session, [Chunk("Hi", c1), Chunk("there!", c2), Finished]);
      && sent.dispatch.LocalRequest?
      && |r.messages| == 1
      && r.messages[0].response == Some("Hithere!")
      && r.messages[0].context == c2
      && r.messages[0].done && !r.messages[0].error
      && r.sendViewState == None && !r.streaming
  {
    var s1 := Send(Initial, m, Some(profile), env).session;
    assert s1 == Session([m], Some(Loading), true);
    var es := [Chunk("Hi", c1), Chunk("there!", c2), Finished];
    var s2 := Deliver(s1, es[0]);
    var s3 := Deliver(s2, es[1]);
    var s4 := Deliver(s3, es[2]);
    assert es[1..] == [es[1], es[2]] && es[2..] == [es[2]] && es[1..][1..] == es[2..];
    assert es[2..][1..] == [];
    assert DeliverAll(s4, []) == s4;
    assert DeliverAll(s3, es[2..]) == s4;
    assert DeliverAll(s2, es[1..]) == s4;
    assert DeliverAll(s1, es) == s4;
    assert "" + "Hi" + "there!" == "Hithere!";
  }
}

=== FILE: ollama_model.dfy ===
/** A model profile as the app stores it (`OllamaModel`). */
module OllamaModels {

  /** `isAvailable`'s stored default, before `init` runs. */
  const DefaultIsAvailable := false

  /** A stored profile: a local Ollama model (`isAPI == false`) or a hosted
      API profile. The `chats` relationship is kept on the `Chat` side. */
  datatype OllamaModel = OllamaModel(
    name: string,
    isAPI: bool,
    apiKey: string,
    apiURL: string,
    isAvailable: bool)
  {
    /** The transient `isNotAvailable` property. */
    predicate IsNotAvailable() {
      isAvailable == false
    }
  }

  /** `OllamaModel.init(name:isAPI:apiKey:apiURL:)`: the four arguments are
      stored as passed, and only a hosted profile starts out available. */
  function NewModel(name: string, isAPI: bool, apiKey: string, apiURL: string): (m: OllamaModel)
    ensures m.name == name && m.isAPI == isAPI && m.apiKey == apiKey && m.apiURL == apiURL
    ensures m.isAvailable <==> isAPI
  {
    OllamaModel(name, isAPI, apiKey, apiURL, if isAPI then true else DefaultIsAvailable)
  }

  /** `isNotAvailable` is always the negation of `isAvailable`. */
  lemma NotAvailableIsNegation(m: OllamaModel)
    ensures m.IsNotAvailable() <==> !m.isAvailable
  {
  }

  /** The `.unique` attribute on `name`: no two stored profiles share a name. */
  predicate UniqueNames(store: seq<OllamaModel>) {
    forall i, j :: 0 <= i < j < |store| ==> store[i].name != store[j].name
  }
}

=== FILE: ollama_view_model.dfy ===
/**
 * `OllamaViewModel`: the stored model profiles, reconciled with the list
 * the local server reports, and the two hosted profiles registered at start.
 * The store is a sequence with unique names; inserting a profile whose name
 * is already stored replaces that record (an upsert keyed by name).
 */
module OllamaViewModel {
  import opened Wrappers
  import opened Text
  import opened OllamaModels

  const ChatGPTName := "gpt-4o"
  const ChatGPTURL := "https://api.openai.com/v1/chat/completions"
  const ClaudeName := "claude3-Opus"
  const ClaudeURL := "https://api.anthropic.com/v1/messages"

  // ---------------------------------------------------------------------------
  // Upsert
  // ---------------------------------------------------------------------------

  /** `modelContext.insert` of a profile with a unique name: the profile is
      stored, every stored profile of another name stays, and nothing else
      is there. */
  function Upsert(store: seq<OllamaModel>, m: OllamaModel): (r: seq<OllamaModel>)
    requires UniqueNames(store)
    ensures UniqueNames(r)
    ensures m in r
    ensures forall x :: x in store && x.name != m.name ==> x in r
    ensures forall x :: x in r ==> x == m || (x in store && x.name != m.name)
  {
    if |store| == 0 then [m]
    else if store[0].name == m.name then
      TailNamesDiffer(store);
      ConsKeepsUnique(m, store[1..]);
      [m] + store[1..]
    else
      TailNamesDiffer(store);
      var rest := Upsert(store[1..], m);
      ConsKeepsUnique(store[0], rest);
      assert store == [store[0]] + store[1..];
      [store[0]] + rest
  }

  // ---------------------------------------------------------------------------
  // init
  // ---------------------------------------------------------------------------

  /** A hosted profile as `addChatGPTModel` and `addClaudeModel` create it. */
  function HostedProfile(name: string, apiKey: string, apiURL: string): OllamaModel {
    NewModel(name, true, apiKey, apiURL).(isAvailable := true)
  }

  /** `init`: the ChatGPT and then the Claude profile are inserted. */
  function Init(store: seq<OllamaModel>, openAIKey: string, claudeKey: string): (r: seq<OllamaModel>)
    requires UniqueNames(store)
    ensures UniqueNames(r)
    ensures HostedProfile(ChatGPTName, openAIKey, ChatGPTURL) in r
    ensures HostedProfile(ClaudeName, claudeKey, ClaudeURL) in r
    ensures forall x :: x in store && x.name != ChatGPTName && x.name != ClaudeName ==> x in r
  {
    var withChatGPT := Upsert(store, HostedProfile(ChatGPTName, openAIKey, ChatGPTURL));
    Upsert(withChatGPT, HostedProfile(ClaudeName, claudeKey, ClaudeURL))
  }

  /** Both registered profiles are hosted and available. */
  lemma InitRegistersHostedProfiles(store: seq<OllamaModel>, openAIKey: string, claudeKey: string)
    requires UniqueNames(store)
    ensures exists x :: x in Init(store, openAIKey, claudeKey) && x.name == "gpt-4o" && x.isAPI && x.isAvailable
    ensures exists x :: x in Init(store, openAIKey, claudeKey) && x.name == "claude3-Opus" && x.isAPI && x.isAvailable
  {
    var r := Init(store, openAIKey, claudeKey);
    assert HostedProfile(ChatGPTName, openAIKey, ChatGPTURL) in r;
    assert HostedProfile(ClaudeName, claudeKey, ClaudeURL) in r;
  }

  // ---------------------------------------------------------------------------
  // fetch
  // ---------------------------------------------------------------------------

  /** The profile `fetch` inserts for a name the server reports: local and available. */
  function RemoteProfile(name: string): (m: OllamaModel)
    ensures m.name == name && !m.isAPI && m.isAvailable
  {
    NewModel(name, false, "", "").(isAvailable := true)
  }

  /** The first loop of `fetch` on one stored profile: reported names become
      available, unreported local ones unavailable, and unreported hosted
      ones keep their flag. */
  function MarkAvailability(m: OllamaModel, remote: seq<string>): (r: OllamaModel)
    ensures r.(isAvailable := m.isAvailable) == m
    ensures m.name in remote ==> r.isAvailable
    ensures m.name !in remote && !m.isAPI ==> !r.isAvailable
    ensures m.name !in remote && m.isAPI ==> r == m
  {
    if m.name in remote then m.(isAvailable := true)
    else if !m.isAPI then m.(isAvailable := false)
    else m
  }

  /** The first loop of `fetch`, over every stored profile. */
  function Reconcile(store: seq<OllamaModel>, remote: seq<string>): (r: seq<OllamaModel>)
    ensures |r| == |store|
    ensures forall i :: 0 <= i < |store| ==> r[i] == MarkAvailability(store[i], remote)
  {
    if |store| == 0 then [] else [MarkAvailability(store[0], remote)] + Reconcile(store[1..], remote)
  }

  lemma ReconcileKeepsNames(store: seq<OllamaModel>, remote: seq<string>)
    requires UniqueNames(store)
    ensures UniqueNames(Reconcile(store, remote))
  {
    var r := Reconcile(store, remote);
    forall i, j | 0 <= i < j < |r| ensures r[i].name != r[j].name {
      assert r[i].name == store[i].name && r[j].name == store[j].name;
    }
  }

  /** The second loop of `fetch`: every reported name is upserted as an
      available local profile. */
  function InsertRemote(store: seq<OllamaModel>, remote: seq<string>): (r: seq<OllamaModel>)
    requires UniqueNames(store)
    ensures UniqueNames(r)
    ensures forall n :: n in remote ==> RemoteProfile(n) in r
    ensures forall x :: x in store && x.name !in remote ==> x in r
    ensures forall x :: x in r ==> (x.name in remote && x == RemoteProfile(x.name)) || (x in store && x.name !in remote)
    decreases |remote|
  {
    if |remote| == 0 then store
    else
      var first := RemoteProfile(remote[0]);
      var next := Upsert(store, first);
      var r := InsertRemote(next, remote[1..]);
      assert remote == [remote[0]] + remote[1..];
      assert first in r by {
        if remote[0] !in remote[1..] {
          assert first in next;
        }
      }
      r
  }

  predicate SortedByName(s: seq<OllamaModel>) {
    forall i, j :: 0 <= i < j < |s| ==> LexLeq(s[i].name, s[j].name)
  }

  /** A profile named no later than a sorted list's head can go in front of it. */
  lemma PrependSorted(m: OllamaModel, s: seq<OllamaModel>)
    requires SortedByName(s) && |s| > 0 && LexLeq(m.name, s[0].name)
    ensures SortedByName([m] + s)
  {
    var r := [m] + s;
    forall i, j | 0 <= i < j < |r| ensures LexLeq(r[i].name, r[j].name) {
      assert r[j] == s[j - 1];
      if i == 0 {
        if j > 1 { LexLeqTransitive(m.name, s[0].name, s[j - 1].name); }
      } else {
        assert r[i] == s[i - 1];
      }
    }
  }

  /** A profile named no later than every element of a sorted list can go in front of it. */
  lemma ConsSorted(h: OllamaModel, t: seq<OllamaModel>)
    requires SortedByName(t) && forall x :: x in t ==> LexLeq(h.name, x.name)
    ensures SortedByName([h] + t)
  {
    var r := [h] + t;
    forall i, j | 0 <= i < j < |r| ensures LexLeq(r[i].name, r[j].name) {
      assert r[j] == t[j - 1];
      if i > 0 { assert r[i] == t[i - 1]; }
    }
  }

  /** Every element of a list that holds the tail of a sorted list and one
      later-named element comes no earlier than the list's head. */
  lemma HeadPrecedes(s: seq<OllamaModel>, m: OllamaModel, rest: seq<OllamaModel>)
    requires SortedByName(s) && |s| > 0 && LexLeq(s[0].name, m.name)
    requires multiset(rest) == multiset(s[1..]) + multiset{m}
    ensures forall x :: x in rest ==> LexLeq(s[0].name, x.name)
  {
    forall x | x in rest ensures LexLeq(s[0].name, x.name) {
      assert x in multiset(rest);
      if x != m {
        assert x in multiset(s[1..]);
        var j :| 0 <= j < |s[1..]| && s[1..][j] == x;
        assert s[j + 1] == x;
      }
    }
  }

  function InsertByName(m: OllamaModel, s: seq<OllamaModel>): (r: seq<OllamaModel>)
    requires SortedByName(s)
    ensures SortedByName(r)
    ensures multiset(r) == multiset(s) + multiset{m}
  {
    if |s| == 0 then [m]
    else if LexLeq(m.name, s[0].name) then
      PrependSorted(m, s);
      [m] + s
    else
      LexLeqTotal(m.name, s[0].name);
      var rest := InsertByName(m, s[1..]);
      assert s == [s[0]] + s[1..];
      HeadPrecedes(s, m, rest);
      ConsSorted(s[0], rest);
      [s[0]] + rest
  }

  /** `fetchFromLocal`: every stored profile, ascending by name. */
  function SortByName(s: seq<OllamaModel>): (r: seq<OllamaModel>)
    ensures SortedByName(r)
    ensures multiset(r) == multiset(s)
  {
    if |s| == 0 then []
    else
      assert s == [s[0]] + s[1..];
      InsertByName(s[0], SortByName(s[1..]))
  }

  /** The tail of a list with unique names holds no other profile of its head's name. */
  lemma TailNamesDiffer(s: seq<OllamaModel>)
    requires UniqueNames(s) && |s| > 0
    ensures UniqueNames(s[1..])
    ensures forall x :: x in s[1..] ==> x.name != s[0].name
  {
    forall x | x in s[1..] ensures x.name != s[0].name {
      var j :| 0 <= j < |s[1..]| && s[1..][j] == x;
      assert s[j + 1] == x;
    }
  }

  /** A head whose name the unique tail does not hold keeps the names unique. */
  lemma ConsKeepsUnique(h: OllamaModel, t: seq<OllamaModel>)
    requires UniqueNames(t) && forall x :: x in t ==> x.name != h.name
    ensures UniqueNames([h] + t)
  {
    var r := [h] + t;
    forall i, j | 0 <= i < j < |r| ensures r[i].name != r[j].name {
      assert r[j] == t[j - 1];
      if i > 0 { assert r[i] == t[i - 1]; }
    }
  }

  /** Inserting a profile of a new name keeps the names unique. */
  lemma {:induction false} InsertByNameKeepsUnique(m: OllamaModel, s: seq<OllamaModel>)
    requires SortedByName(s) && UniqueNames(s)
    requires forall x :: x in s ==> x.name != m.name
    ensures UniqueNames(InsertByName(m, s))
  {
    if |s| == 0 {
    } else if LexLeq(m.name, s[0].name) {
      ConsKeepsUnique(m, s);
    } else {
      TailNamesDiffer(s);
      var rest := InsertByName(m, s[1..]);
      InsertByNameKeepsUnique(m, s[1..]);
      forall x | x in rest ensures x.name != s[0].name {
        assert x in multiset(rest);
        if x != m { assert x in multiset(s[1..]); }
      }
      ConsKeepsUnique(s[0], rest);
    }
  }

  /** Sorting keeps the names unique. */
  lemma {:induction false} SortByNameKeepsUnique(s: seq<OllamaModel>)
    requires UniqueNames(s)
    ensures UniqueNames(SortByName(s))
  {
    if |s| > 0 {
      TailNamesDiffer(s);
      var rest := SortByName(s[1..]);
      SortByNameKeepsUnique(s[1..]);
      forall x | x in rest ensures x.name != s[0].name {
        assert x in multiset(rest);
        assert x in multiset(s[1..]);
      }
      InsertByNameKeepsUnique(s[0], rest);
    }
  }

  /** The store once `fetch` has run both loops: availability reconciled
      and every reported model upserted. */
  function Reconciled(store: seq<OllamaModel>, remote: seq<string>): (r: seq<OllamaModel>)
    requires UniqueNames(store)
    ensures UniqueNames(r)
  {
    ReconcileKeepsNames(store, remote);
    InsertRemote(Reconcile(store, remote), remote)
  }

  /** Some stored profile has this name. */
  predicate HasName(store: seq<OllamaModel>, name: string) {
    exists x :: x in store && x.name == name
  }

  /** The published `models` after the first loop of `fetch` has run but
      before they are fetched again. The published profiles are the store's
      own records (one object per record), so each one that is stored shows
      the new availability flag; the others are shown as they were. */
  function ShownAfterReconcile(published: seq<OllamaModel>, store: seq<OllamaModel>, remote: seq<string>)
    : (r: seq<OllamaModel>)
    ensures |r| == |published|
    ensures forall i :: 0 <= i < |r| ==> r[i].(isAvailable := published[i].isAvailable) == published[i]
    ensures forall i :: 0 <= i < |r| && HasName(store, published[i].name) && published[i].name in remote ==> r[i].isAvailable
    ensures forall i :: 0 <= i < |r| && HasName(store, published[i].name) && published[i].name !in remote && !published[i].isAPI ==> !r[i].isAvailable
    ensures forall i :: 0 <= i < |r| && (!HasName(store, published[i].name) || (published[i].name !in remote && published[i].isAPI)) ==> r[i] == published[i]
  {
    if |published| == 0 then []
    else
      var p := published[0];
      [if HasName(store, p.name) then MarkAvailability(p, remote) else p]
        + ShownAfterReconcile(published[1..], store, remote)
  }

  /** `fetch()`, given the store, the published `models`, the server's model
      names (`None` when `fetchFromRemote` throws) and whether the save
      succeeds. A throwing request ends `fetch` before anything changes. A
      throwing save ends it after both loops have changed the store, and
      before `models` is fetched again: the published list keeps its
      profiles, in its order, but those that are stored already show their
      new availability. Otherwise `models` becomes the new store sorted by
      name. Returns the new store and the new `models`. */
  function Fetch(store: seq<OllamaModel>, published: seq<OllamaModel>, remote: Option<seq<string>>, saveSucceeds: bool)
    : (r: (seq<OllamaModel>, seq<OllamaModel>))
    requires UniqueNames(store)
    ensures remote.None? ==> r == (store, published)
    ensures remote.Some? ==> UniqueNames(r.0)
    ensures remote.Some? && !saveSucceeds ==>
      && |r.1| == |published|
      && (forall i :: 0 <= i < |published| ==> r.1[i].(isAvailable := published[i].isAvailable) == published[i])
      && (forall i :: 0 <= i < |published| && HasName(store, published[i].name) && published[i].name in remote.value ==> r.1[i].isAvailable)
      && (forall i :: 0 <= i < |published| && HasName(store, published[i].name) && published[i].name !in remote.value && !published[i].isAPI ==> !r.1[i].isAvailable)
      && (forall i :: 0 <= i < |published| && !HasName(store, published[i].name) ==> r.1[i] == published[i])
    ensures remote.Some? && saveSucceeds ==>
      SortedByName(r.1) && multiset(r.1) == multiset(r.0) && UniqueNames(r.1)
  {
    match remote
    case None => (store, published)
    case Some(names) =>
      var stored := Reconciled(store, names);
      if saveSucceeds then
        SortByNameKeepsUnique(stored);
        (stored, SortByName(stored))
      else
        (stored, ShownAfterReconcile(published, store, names))
  }

  /** What the published list holds after a successful `fetch`: every
      reported name as an available local profile; every unreported local
      profile, now unavailable; every unreported hosted profile, unchanged;
      and nothing else. */
  lemma FetchReconciles(store: seq<OllamaModel>, published: seq<OllamaModel>, remote: seq<string>)
    requires UniqueNames(store)
    ensures var models := Fetch(store, published, Some(remote), true).1;
      && (forall n :: n in remote ==> RemoteProfile(n) in models)
      && (forall x :: x in store && x.name !in remote && !x.isAPI ==> x.(isAvailable := false) in models)
      && (forall x :: x in store && x.name !in remote && x.isAPI ==> x in models)
      && (forall y :: y in models ==>
            || (y.name in remote && y == RemoteProfile(y.name))
            || (exists x :: x in store && x.name !in remote && y == MarkAvailability(x, remote)))
  {
    ReconcileKeepsNames(store, remote);
    var reconciled := Reconcile(store, remote);
    var stored := InsertRemote(reconciled, remote);
    assert stored == Reconciled(store, remote);
    var models := SortByName(stored);
    assert models == Fetch(store, published, Some(remote), true).1;
    assert forall y :: y in models <==> y in stored by {
      forall y ensures y in models <==> y in stored {
        assert y in models <==> y in multiset(models);
        assert y in stored <==> y in multiset(stored);
      }
    }
    forall x | x in store && x.name !in remote
      ensures MarkAvailability(x, remote) in models
    {
      var i :| 0 <= i < |store| && store[i] == x;
      assert reconciled[i] == MarkAvailability(x, remote);
    }
    forall y | y in models && !(y.name in remote && y == RemoteProfile(y.name))
      ensures exists x :: x in store && x.name !in remote && y == MarkAvailability(x, remote)
    {
      assert y in reconciled && y.name !in remote;
      var i :| 0 <= i < |reconciled| && reconciled[i] == y;
      assert store[i] in store && store[i].name == y.name;
    }
  }

  /** Every previously stored profile whose name the server reports is
      available afterwards; reported names always win over hosted profiles. */
  lemma ReportedModelsAreAvailable(store: seq<OllamaModel>, published: seq<OllamaModel>, remote: seq<string>, x: OllamaModel)
    requires UniqueNames(store) && x in store && x.name in remote
    ensures exists y :: y in Fetch(store, published, Some(remote), true).1 && y.name == x.name && y.isAvailable
  {
    FetchReconciles(store, published, remote);
    assert RemoteProfile(x.name) in Fetch(store, published, Some(remote), true).1;
  }
}

=== FILE: text.dfy ===
/**
 * String rules the app relies on: trimming a prompt, splitting a reply into
 * words and joining them again, and the order in which names are sorted.
 */
module Text {

  // ---------------------------------------------------------------------------
  // Trimming
  // ---------------------------------------------------------------------------

  /** Membership in Foundation's `CharacterSet.whitespacesAndNewlines`: the
      Unicode space separators (category Zs), TAB, the line feeds LF, VT, FF,
      CR and NEL, and the line and paragraph separators. */
  predicate IsWhitespace(c: char) {
    || c == ' ' || c == '\t' || c == '\n' || c == '\U{0B}' || c == '\U{0C}' || c == '\r'
    || c == '\U{85}' || c == '\U{A0}' || c == '\U{1680}'
    || ('\U{2000}' <= c && c <= '\U{200A}')
    || c == '\U{2028}' || c == '\U{2029}' || c == '\U{202F}' || c == '\U{205F}' || c == '\U{3000}'
  }

  /** Every character is whitespace (the empty string is blank). */
  predicate IsBlank(s: string) {
    forall i :: 0 <= i < |s| ==> IsWhitespace(s[i])
  }

  /** `s` without its leading whitespace: a suffix of `s` whose dropped part is blank. */
  function TrimLeading(s: string): (r: string)
    ensures |r| <= |s| && r == s[|s| - |r|..]
    ensures IsBlank(s[..|s| - |r|])
    ensures |r| > 0 ==> !IsWhitespace(r[0])
  {
    if |s| > 0 && IsWhitespace(s[0]) then
      var r := TrimLeading(s[1..]);
      var dropped := s[..|s| - |r|];
      assert r == s[|s| - |r|..];
      assert IsBlank(dropped) by {
        forall i | 0 <= i < |dropped| ensures IsWhitespace(dropped[i]) {
          if i > 0 { assert dropped[i] == s[1..][..|s| - 1 - |r|][i - 1]; }
        }
      }
      r
    else
      s
  }

  /** `s` without its trailing whitespace: a prefix of `s` whose dropped part is blank. */
  function TrimTrailing(s: string): (r: string)
    ensures |r| <= |s| && r == s[..|r|]
    ensures IsBlank(s[|r|..])
    ensures |r| > 0 ==> !IsWhitespace(r[|r| - 1])
  {
    if |s| > 0 && IsWhitespace(s[|s| - 1]) then
      var r := TrimTrailing(s[..|s| - 1]);
      assert s[|r|..] == s[..|s| - 1][|r|..] + [s[|s| - 1]];
      r
    else
      s
  }

  /** `trimmingCharacters(in: .whitespacesAndNewlines)`: nothing is left
      exactly when the string is blank, and what is left neither starts nor
      ends with whitespace. */
  function Trim(s: string): (r: string)
    ensures |r| == 0 <==> IsBlank(s)
    ensures |r| > 0 ==> !IsWhitespace(r[0]) && !IsWhitespace(r[|r| - 1])
    ensures |r| <= |s|
    ensures exists i, j :: 0 <= i <= j <= |s| && r == s[i..j] && IsBlank(s[..i]) && IsBlank(s[j..])
  {
    var t := TrimLeading(s);
    var r := TrimTrailing(t);
    var i := |s| - |t|;
    assert r == s[i..i + |r|] && s[i + |r|..] == t[|r|..];
    if |r| == 0 then
      assert t[|r|..] == t;
      assert s == s[..|s| - |t|] + t;
      r
    else
      assert r[0] == t[0];
      assert !IsWhitespace(s[|s| - |t|]);
      r
  }

  // ---------------------------------------------------------------------------
  // Words
  // ---------------------------------------------------------------------------

  /** No character of `w` is the space U+0020. */
  predicate NoSpace(w: string) {
    forall i :: 0 <= i < |w| ==> w[i] != ' '
  }

  /** A piece `split(separator: " ")` can produce: non-empty and space-free. */
  predicate IsWord(w: string) {
    |w| > 0 && NoSpace(w)
  }

  /** The longest prefix of `s` that holds no space. */
  function FirstWord(s: string): (w: string)
    ensures w <= s
    ensures NoSpace(w)
    ensures |w| < |s| ==> s[|w|] == ' '
    ensures |s| > 0 && s[0] != ' ' ==> |w| > 0
  {
    if |s| == 0 || s[0] == ' ' then "" else [s[0]] + FirstWord(s[1..])
  }

  /** `split(separator: " ")` with its default of omitting empty pieces:
      the maximal space-free runs of `s`, left to right. The model's
      characters are Unicode scalars; Swift compares whole grapheme clusters
      with " ", so a space followed by a combining mark does not separate
      there, while it does here. */
  function SplitWords(s: string): (ws: seq<string>)
    ensures forall i :: 0 <= i < |ws| ==> IsWord(ws[i])
    decreases |s|
  {
    if |s| == 0 then []
    else if s[0] == ' ' then SplitWords(s[1..])
    else
      var w := FirstWord(s);
      [w] + SplitWords(s[|w|..])
  }

  /** The words joined by single spaces. */
  function JoinWords(ws: seq<string>): string {
    if |ws| == 0 then ""
    else if |ws| == 1 then ws[0]
    else ws[0] + " " + JoinWords(ws[1..])
  }

  /** A character put in front of the first word goes in front of the join. */
  lemma JoinWordsHead(c: string, w: string, ws: seq<string>)
    ensures JoinWords([c + w] + ws) == c + JoinWords([w] + ws)
  {
    assert ([c + w] + ws)[1..] == ws && ([w] + ws)[1..] == ws;
  }

  /** Appending one word adds it after a single space, or alone when there
      was nothing before. */
  lemma {:induction false} JoinWordsSnoc(ws: seq<string>, w: string)
    ensures JoinWords(ws + [w]) == if |ws| == 0 then w else JoinWords(ws) + " " + w
  {
    if |ws| == 0 {
      assert ws + [w] == [w];
    } else if |ws| == 1 {
      assert ws + [w] == [ws[0], w];
      assert (ws + [w])[1..] == [w];
    } else {
      assert (ws + [w])[1..] == ws[1..] + [w];
      JoinWordsSnoc(ws[1..], w);
    }
  }

  /** The join of a non-empty list of words is not empty. */
  lemma JoinWordsNonEmpty(ws: seq<string>)
    requires |ws| > 0 && IsWord(ws[0])
    ensures |JoinWords(ws)| > 0
  {
  }

  /** Joining a prefix of the list gives a prefix of the whole join. */
  lemma {:induction false} JoinWordsPrefix(ws: seq<string>, i: nat)
    requires i <= |ws|
    ensures JoinWords(ws[..i]) <= JoinWords(ws)
    decreases |ws| - i
  {
    if i == |ws| {
      assert ws[..i] == ws;
    } else {
      JoinWordsPrefix(ws, i + 1);
      assert ws[..i + 1] == ws[..i] + [ws[i]];
      JoinWordsSnoc(ws[..i], ws[i]);
    }
  }

  /** A space-free `w` followed by nothing or by a space is the first word. */
  lemma {:induction false} FirstWordOf(w: string, t: string)
    requires NoSpace(w)
    requires |t| == 0 || t[0] == ' '
    ensures FirstWord(w + t) == w
  {
    if |w| > 0 {
      assert (w + t)[1..] == w[1..] + t;
      FirstWordOf(w[1..], t);
    } else {
      assert w + t == t;
    }
  }

  /** Round trip: splitting the join of words gives back the same words. */
  lemma {:induction false} SplitJoinWords(ws: seq<string>)
    requires forall i :: 0 <= i < |ws| ==> IsWord(ws[i])
    ensures SplitWords(JoinWords(ws)) == ws
  {
    if |ws| == 0 {
    } else if |ws| == 1 {
      FirstWordOf(ws[0], "");
      assert ws[0] + "" == ws[0];
      assert ws[0][|ws[0]|..] == "";
      assert ws == [ws[0]];
    } else {
      var rest := JoinWords(ws[1..]);
      var s := ws[0] + (" " + rest);
      assert JoinWords(ws) == s;
      FirstWordOf(ws[0], " " + rest);
      assert s[|ws[0]|..] == " " + rest;
      assert (" " + rest)[1..] == rest;
      SplitJoinWords(ws[1..]);
      assert ws == [ws[0]] + ws[1..];
    }
  }

  /** A string with no leading or trailing space and no two spaces in a row. */
  predicate SingleSpaced(s: string) {
    && (|s| > 0 ==> s[0] != ' ' && s[|s| - 1] != ' ')
    && forall i :: 0 <= i < |s| - 1 ==> !(s[i] == ' ' && s[i + 1] == ' ')
  }

  /** What follows the first word and its space in a single-spaced string
      is single-spaced and starts with a word. */
  lemma SingleSpacedRest(s: string, k: nat)
    requires SingleSpaced(s)
    requires k < |s| && s[k] == ' '
    ensures |s[k + 1..]| > 0 && s[k + 1..][0] != ' '
    ensures SingleSpaced(s[k + 1..])
  {
    var rest := s[k + 1..];
    assert k + 1 < |s|;
    assert !(s[k] == ' ' && s[k + 1] == ' ');
    forall i | 0 <= i < |rest| - 1
      ensures !(rest[i] == ' ' && rest[i + 1] == ' ')
    {
      assert rest[i] == s[k + 1 + i] && rest[i + 1] == s[k + 2 + i];
    }
  }

  /** Splitting a string that starts with a word yields that word first. */
  lemma SplitWordsCons(s: string)
    requires |s| > 0 && s[0] != ' '
    ensures SplitWords(s) == [FirstWord(s)] + SplitWords(s[|FirstWord(s)|..])
  {
  }

  /** `s` as a reply's words show it: leading and trailing spaces dropped and
      each run of spaces between two other characters reduced to one space,
      read one character at a time. */
  function CollapseSpaces(s: string): string
    decreases |s|
  {
    if |s| == 0 then ""
    else if s[0] == ' ' then CollapseSpaces(s[1..])
    else
      var rest := CollapseSpaces(s[1..]);
      if |s| > 1 && s[1] == ' ' && |rest| > 0 then [s[0]] + " " + rest else [s[0]] + rest
  }

  /** What split and join do to any string: they collapse its spaces. With
      `SplitJoinWords` this pins the split down completely: the words of `s`
      are the only list of words whose single-spaced join is
      `CollapseSpaces(s)`. */
  lemma {:induction false} JoinSplitCollapsesSpaces(s: string)
    ensures JoinWords(SplitWords(s)) == CollapseSpaces(s)
    decreases |s|
  {
    if |s| == 0 {
    } else if s[0] == ' ' {
      JoinSplitCollapsesSpaces(s[1..]);
    } else if |s| == 1 {
      assert FirstWord(s) == s;
      assert SplitWords(s) == [s];
      assert CollapseSpaces(s) == [s[0]] + "";
    } else if s[1] == ' ' {
      assert FirstWord(s) == [s[0]];
      assert s[1..] == s[|FirstWord(s)|..];
      JoinSplitCollapsesSpaces(s[1..]);
      var ws := SplitWords(s[1..]);
      assert SplitWords(s) == [[s[0]]] + ws;
      assert ([[s[0]]] + ws)[1..] == ws;
      if |ws| > 0 {
        JoinWordsNonEmpty(ws);
      }
    } else {
      var w := FirstWord(s[1..]);
      assert FirstWord(s) == [s[0]] + w;
      assert s[|FirstWord(s)|..] == s[1..][|w|..];
      SplitWordsCons(s[1..]);
      JoinWordsHead([s[0]], w, SplitWords(s[1..][|w|..]));
      JoinSplitCollapsesSpaces(s[1..]);
    }
  }

  /** A word followed by a space and a single-spaced non-empty string is
      single-spaced. */
  lemma SingleSpacedJoin(a: string, b: string)
    requires IsWord(a) && SingleSpaced(b) && |b| > 0
    ensures SingleSpaced(a + " " + b)
  {
    var s := a + " " + b;
    forall i | 0 <= i < |s| - 1
      ensures !(s[i] == ' ' && s[i + 1] == ' ')
    {
      if i < |a| {
        assert s[i] == a[i];
      } else if i == |a| {
        assert s[i + 1] == b[0];
      } else {
        assert s[i] == b[i - |a| - 1] && s[i + 1] == b[i - |a|];
      }
    }
    assert s[|s| - 1] == b[|b| - 1];
  }

  /** Words joined by single spaces form a single-spaced string. */
  lemma {:induction false} JoinWordsSingleSpaced(ws: seq<string>)
    requires forall i :: 0 <= i < |ws| ==> IsWord(ws[i])
    ensures SingleSpaced(JoinWords(ws))
  {
    if |ws| == 1 {
      assert ws[0][0] != ' ' && ws[0][|ws[0]| - 1] != ' ';
    } else if |ws| > 1 {
      JoinWordsSingleSpaced(ws[1..]);
      JoinWordsNonEmpty(ws[1..]);
      SingleSpacedJoin(ws[0], JoinWords(ws[1..]));
    }
  }

  /** Round trip the other way: a single-spaced string survives split and join. */
  lemma {:induction false} JoinSplitWords(s: string)
    requires SingleSpaced(s)
    ensures JoinWords(SplitWords(s)) == s
    decreases |s|
  {
    if |s| > 0 {
      var w := FirstWord(s);
      SplitWordsCons(s);
      if |w| == |s| {
        assert w == s;
        assert SplitWords(s[|w|..]) == [];
      } else {
        var rest := s[|w| + 1..];
        SingleSpacedRest(s, |w|);
        assert s[|w|..][1..] == rest;
        assert SplitWords(s[|w|..]) == SplitWords(rest);
        JoinSplitWords(rest);
        var tail := SplitWords(rest);
        SplitWordsCons(rest);
        assert |tail| > 0;
        assert ([w] + tail)[1..] == tail;
        assert JoinWords([w] + tail) == w + " " + rest;
        assert s == w + " " + rest;
      }
    }
  }

  // ---------------------------------------------------------------------------
  // Name order
  // ---------------------------------------------------------------------------

  /** Lexicographic order on code points: `a` sorts no later than `b`. */
  predicate LexLeq(a: string, b: string)
    decreases |a|
  {
    |a| == 0 || (|b| > 0 && (a[0] < b[0] || (a[0] == b[0] && LexLeq(a[1..], b[1..]))))
  }

  lemma {:induction false} LexLeqTotal(a: string, b: string)
    ensures LexLeq(a, b) || LexLeq(b, a)
    decreases |a|
  {
    if |a| > 0 && |b| > 0 && a[0] == b[0] {
      LexLeqTotal(a[1..], b[1..]);
    }
  }

  lemma {:induction false} LexLeqTransitive(a: string, b: string, c: string)
    requires LexLeq(a, b) && LexLeq(b, c)
    ensures LexLeq(a, c)
    decreases |a|
  {
    if |a| > 0 && a[0] == b[0] && b[0] == c[0] {
      LexLeqTransitive(a[1..], b[1..], c[1..]);
    }
  }
}

=== FILE: wrappers.dfy ===
/** Optional values and results, standing for Swift's `T?` and `throws`. */
module Wrappers {

  /** Swift's `Optional<T>`: `nil` is `None`. */
  datatype Option<+T> = None | Some(value: T) {

    /** Swift's `??` operator. */
    function GetOr(default: T): T {
      match this
      case Some(v) => v
      case None => default
    }
  }

  /** The outcome of a throwing call: a value or the error it threw. */
  datatype Result<+R, +E> = Success(value: R) | Failure(error: E)
}
